=== FILE: README.md ===
# QUIC extension plugins, modelled in Dafny

This project models six plugins of a QUIC plugin framework. Each plugin is a
sandboxed module that the host QUIC engine calls through fixed callbacks:
a send gate (`should_send_frame_*`), `prepare`, `write`, `wire_len`, `parse`,
`process`, `on_frame_reserved`, `notify`, transport-parameter encode/decode,
timer callbacks and control entries (`plugin_control_*`) that other plugins
reach by capability id. Every callback becomes a pure function from the
plugin's per-connection state and the host's answers to the new state, a
status and the output the callback hands to the host.

- `host.dfy` (`Host`): byte types, the 32-bit `usize` of the WebAssembly
  target, packet types, and the callback status `Ok | Abort | Failed(code) |
  Panic`. `Failed` keeps the exact negative code; `Abort` is the -1000
  packet-abort sentinel; `Panic` is a Rust panic, which returns no code.
  Results have three shapes: `Step` (new state and output), `Update` (new
  state only) and `Reply` (output only).
- `bigendian.dfy` (`BigEndian`) and `varint.dfy` (`Varint`): big-endian
  integers and QUIC variable-length integers (section 16 of RFC 9000), with
  the round trips the frame layouts rely on.
- `super_frame.dfy` (`SuperFrame`) and `super_frame_trace.dfy`
  (`SuperFrameTrace`): opaque frame 0x42. It has a tag table, an in-flight
  flag and a cadence counter. The trace module covers callback sequences.
- `bdp_frame.dfy` (`BdpFrame`): frame 0xbd, which carries a congestion window.
- `privacy_padding.dfy` (`PrivacyPadding`): a padding frame 0x0 and an
  abort sentinel 0xaaaa, with timer 7 and control 0x80001.
- `ack_frequency.dfy` (`AckFrequency`): transport parameter 0xff04de1b and
  a rate-limited gate for the standard ACK frame.
- `probe_path.dfy` (`ProbePath`): PATH_CHALLENGE and PATH_RESPONSE (sections
  19.17 and 19.18 of RFC 9000) with a list of outstanding challenges.
- `max_data.dfy` (`MaxData`): the monotone MAX_DATA update (section 4.1 of
  RFC 9000).
- `capability_bus.dfy` (`CapabilityBus`): `process_frame_42` calling the
  padding plugin's control 0x80001. It models the case where that plugin is
  not installed.

Host calls are parameters:
- A host read is an `Option`. None means the host refused it.
- A host write (`save_output`, `put_bytes`, `set_timer`, `set_recovery`,
  `set_connection`, a capability call) is a `bool`.
- The random nonce and the random pause are parameters. The pause must be
  below 10000 µs, the range the generator draws from.
- Time is a `nat` count of microseconds.
- The state that the code keeps in process-wide `lazy_static` cells is an
  explicit per-connection `State` record.

## Model

| member | source | states |
|---|---|---|
| BigEndian.FromToBE | bdp-frame/src/lib.rs:115-152 | decoding the `to_be_bytes` form of a value gives the value back |
| BigEndian.LeadingZeros | ack-frequency/src/lib.rs:40-43 | left-padding with zero bytes does not change a big-endian value |
| SuperFrame.WriteTransportParameter | super-frame/src/lib.rs:54-66 | the 9 parameter bytes are id 0xaaaaaaaa as its shortest (8-byte) varint and a zero length; -1 without a buffer, -4 when the put fails |
| SuperFrame.ShouldSend | super-frame/src/lib.rs:72-86 | gate true iff short-header packet, not closing and nothing in flight; -1/-2/-3 for a missing packet type, closing flag or failed save |
| SuperFrame.Prepare | super-frame/src/lib.rs:97-106 | issues tag = old counter and the counter grows by one; that tag was not live and now maps to its low byte; other entries and flags are kept; -1 on a failed save, with the table already updated |
| SuperFrame.Parse | super-frame/src/lib.rs:160-182 | the counter is consumed once the buffer is there; the table gains only the read byte under the fresh tag; -1/-2/-3 errors; an empty read panics |
| SuperFrame.Process | super-frame/src/lib.rs:185-199 | at cnt 4 the toggle is called with `flip`; a successful call negates `flip` and leaves cnt 1; otherwise `flip` is kept and cnt grows by one mod 256 |
| SuperFrame.ProcessReleasing | super-frame/src/lib.rs:185-199 | corrected process: like process_frame_42, and the processed frame's tag leaves the table |
| SuperFrame.WireLen | super-frame/src/lib.rs:202-210 | length output exactly when the save succeeds, -1 otherwise |
| SuperFrame.Write | super-frame/src/lib.rs:109-132 | writes 3 bytes: type 0x42 as a 2-byte varint, then the tag's payload byte; a tag missing from the table gives -2 and writes nothing; -1/-3/-4/-5 for the other failures |
| SuperFrame.OnFrameReserved | super-frame/src/lib.rs:213-220 | sets the in-flight flag and nothing else |
| SuperFrame.Notify | super-frame/src/lib.rs:223-237 | with both inputs, removes exactly the notified tag and clears in-flight, nothing else; -1/-2 leave the state alone |
| SuperFrame.WireLenMatchesWrite | super-frame/src/lib.rs:123-128 | wire_len equals the number of bytes write emits |
| SuperFrame.PayloadRoundTrip | super-frame/src/lib.rs:100-175 | a written frame carries the tag's low byte after prepare, and the parsed byte after parse |
| SuperFrame.PrepareThenNotifyRestoresTable | super-frame/src/lib.rs:97-235 | a successfully saved frame, once notified, returns the tag table to its previous contents |
| SuperFrame.FailedSaveLeaksTag | super-frame/src/lib.rs:97-182 | as written, a prepare or parse whose save fails hands no frame to the host, yet its tag stays in the table |
| SuperFrame.PrepareCorrected | super-frame/src/lib.rs:97-106 | same status and frame as prepare, but the tag is live iff the host received the frame naming it |
| SuperFrame.ParseCorrected | super-frame/src/lib.rs:160-182 | same status, frame and counter as parse, but the byte is stored iff the host received the parsed frame; on a failed save the state is parse's with the table untouched |
| SuperFrame.CorrectedReceiveReleasesOnce | super-frame/src/lib.rs:160-199 | with the correction, every received frame leaves the table as it was, either at once on a failed save or once the frame is processed |
| SuperFrame.CorrectedPrepareReleasesOnce | super-frame/src/lib.rs:97-235 | with the correction, every prepare leaves the table as it was, either at once on a failed save or after the frame's notification |
| SuperFrameTrace.TagsIncrease | super-frame/src/lib.rs:98-175 | along any callback sequence, issued tags strictly increase, lie in [start counter, end counter), and no tag is issued while live |
| SuperFrameTrace.ReservedUntilNotified | super-frame/src/lib.rs:213-235 | after reservation, until a notification arrives, in-flight stays set and the gate answers false for every packet |
| SuperFrameTrace.SendCyclesRestoreTable | super-frame/src/lib.rs:97-235 | after n complete prepare/reserve/notify cycles the table is back to its contents, n tags were used and nothing is in flight |
| SuperFrameTrace.ReceivedTagsAccumulate | super-frame/src/lib.rs:160-199 | as written, every received frame (parse then process) leaves one more table entry: n frames, n entries |
| SuperFrameTrace.ReleasedReceivesRestoreTable | super-frame/src/lib.rs:160-199 | with the corrected process, any number of received frames leave the table as it was |
| SuperFrameTrace.NotifiedReopensGate | super-frame/src/lib.rs:81-235 | after a notification the gate depends only on packet type and closing flag |
| BdpFrame.DecodeTransportParameter | bdp-frame/src/lib.rs:43-50 | sets `should_send` only when the host says the connection is not a server, otherwise keeps the state; always enables the plugin |
| BdpFrame.WriteTransportParameter | bdp-frame/src/lib.rs:53-66 | 3 bytes: id 0xbf as its shortest varint and a zero length; -1/-4 on failure |
| BdpFrame.ShouldSend | bdp-frame/src/lib.rs:72-86 | gate true iff short-header packet, not closing and `should_send`; -1/-2/-3 errors |
| BdpFrame.Prepare | bdp-frame/src/lib.rs:97-103 | saves frame 0xbd with tag 0, or -1 |
| BdpFrame.FrameBytes | bdp-frame/src/lib.rs:113-115 | 10 bytes whose varint type is 0xbd and whose last 8 bytes hold the window big-endian |
| BdpFrame.Write | bdp-frame/src/lib.rs:106-124 | emits `[0x40, 0xbd]` and the big-endian `previous_cwin`, 10 bytes; -3/-4/-5 errors |
| BdpFrame.Parse | bdp-frame/src/lib.rs:143-162 | stores the 8 read bytes as the window to set, changing nothing else; -1/-2/-3 errors; a read of another length panics |
| BdpFrame.Process | bdp-frame/src/lib.rs:165-175 | sets cwnd then ssthresh to the window cast to usize; below 2^32 that is exactly the window; a failed first set gives -1 with ssthresh untouched, a failed second gives -2 |
| BdpFrame.ProcessCorrected | bdp-frame/src/lib.rs:165-175 | both writes carry exactly the received window for every u64 value |
| BdpFrame.WireLen | bdp-frame/src/lib.rs:178-186 | length output exactly when the save succeeds |
| BdpFrame.OnFrameReserved | bdp-frame/src/lib.rs:189-193 | clears `should_send` and nothing else |
| BdpFrame.Notify | bdp-frame/src/lib.rs:196-205 | `should_send` becomes `is_lost`, nothing else changes; -1 without the input |
| BdpFrame.WireLenMatchesWrite | bdp-frame/src/lib.rs:113-180 | wire_len equals the written length |
| BdpFrame.WriteParseRoundTrip | bdp-frame/src/lib.rs:115-155 | parsing bytes 2..10 of a written frame yields the sender's `previous_cwin` |
| BdpFrame.EndToEndCorrected | bdp-frame/src/lib.rs:115-171 | write, parse and corrected process set the receiver's cwnd and ssthresh to the sender's window |
| BdpFrame.EndToEndAsWritten | bdp-frame/src/lib.rs:115-171 | with the code as written, the same holds for windows below 2^32 |
| BdpFrame.TruncatedWindow | bdp-frame/src/lib.rs:167-170 | a received window of 2^32 installs cwnd and ssthresh 0 |
| BdpFrame.SendOnceUnlessLost | bdp-frame/src/lib.rs:189-203 | after reservation the gate is closed; after a notification it is open iff the frame was lost |
| BdpFrame.EnablementOpensGate | bdp-frame/src/lib.rs:43-50 | the gate, closed initially, offers the frame on the next short-header packet once a client receives the parameter; on a server the gate's answer is unchanged |
| PrivacyPadding.PaddingGate | privacy-padding/src/lib.rs:42-73 | out = left > 0 && (not short or enable); a short packet on an established connection sets `stop_sending` and arms timer (1, 7) at now + pause, within [now, now + 10000); otherwise the state is untouched; -1/-2/-3/-5/-6/-4 errors in source order |
| PrivacyPadding.SentinelGate | privacy-padding/src/lib.rs:76-81 | sentinel gate true iff `enable && stop_sending`; -4 on a failed save |
| PrivacyPadding.PreparePadding | privacy-padding/src/lib.rs:84-93 | padding frame length equals `left`; -2/-1 errors |
| PrivacyPadding.WireLenPadding | privacy-padding/src/lib.rs:96-105 | wire length equals the frame length; -2/-1 errors |
| PrivacyPadding.WritePadding | privacy-padding/src/lib.rs:108-127 | writes exactly the frame's length in zero bytes; -2/-3/-4/-1 errors |
| PrivacyPadding.PrepareSentinel | privacy-padding/src/lib.rs:131-134 | always the packet-abort outcome, whose code is -1000 |
| PrivacyPadding.OnTimeout | privacy-padding/src/lib.rs:137-140 | clears `stop_sending` only |
| PrivacyPadding.Control | privacy-padding/src/lib.rs:143-149 | sets `enable` to the argument only; -2 without it |
| PrivacyPadding.PaddingFillsSpace | privacy-padding/src/lib.rs:84-127 | a prepared padding frame has wire length `left` and is written as `left` zero bytes |
| PrivacyPadding.PausedUntilTimeout | privacy-padding/src/lib.rs:61-81 | once paused, no callback but timer 7 ends the pause, and until then the sentinel is offered whenever the plugin is enabled |
| PrivacyPadding.TriggerPauses | privacy-padding/src/lib.rs:60-68 | a short packet on an established connection pauses sending, arms timer 7 at now + pause, and opens the sentinel gate if enabled |
| AckFrequency.DecodeTransportParameter | ack-frequency/src/lib.rs:29-46 | stores the big-endian value of the (at most 8) received bytes as `min_ack`; -1/-2 errors; more than 8 bytes panic |
| AckFrequency.WriteTransportParameter | ack-frequency/src/lib.rs:49-64 | 11 bytes: id 0xff04de1b as its shortest varint, length 2, and two bytes worth 10000 |
| AckFrequency.ShouldSendAck | ack-frequency/src/lib.rs:67-123 | out = not too soon (last + min > now) and need-ack and ack-elicited and (not closing or Handshake); a true result sets `last_sent := now`, a false one keeps the state; -7/-1/-9/-4/-3/-2/-6 errors in source order |
| AckFrequency.AdvertisedIntervalRoundTrip | ack-frequency/src/lib.rs:40-57 | the last two written parameter bytes decode to 10000 µs |
| AckFrequency.PacedAfterSend | ack-frequency/src/lib.rs:96-118 | after a true decision at t, every decision before t + min_ack is false and changes nothing; from t + min_ack on (boundary included) only the base condition counts |
| AckFrequency.UnpacedWithoutHistory | ack-frequency/src/lib.rs:96-112 | without `min_ack` or `last_sent` only the base condition counts |
| AckFrequency.TenMillisecondScenario | ack-frequency/src/lib.rs:96-118 | with 10 ms negotiated: sent at t0, refused at t0+5 ms, sent at t0+10 ms and t0+11 ms |
| ProbePath.ShouldSend | probe-path/src/lib.rs:24-39 | gate true iff short-header packet, not closing and a challenge requested; -1/-2/-3 errors |
| ProbePath.Prepare | probe-path/src/lib.rs:42-56 | saves a challenge carrying the drawn nonce; -1 when the clock or the save fails |
| ProbePath.Write | probe-path/src/lib.rs:59-79 | 9 bytes: 0x1a then the nonce big-endian; -1/-3/-4/-5 errors |
| ProbePath.OnFrameReserved | probe-path/src/lib.rs:82-94 | appends (nonce, now) at the end of the list, keeps the earlier entries, clears the request; -1/-2 errors |
| ProbePath.Retain | probe-path/src/lib.rs:106-114 | keeps exactly the entries whose nonce differs from the response's |
| ProbePath.PreProcessResponse | probe-path/src/lib.rs:97-116 | the list becomes the retained entries, the request flag is kept; -1/-2 errors |
| ProbePath.Control | probe-path/src/lib.rs:119-123 | sets the request flag and nothing else |
| ProbePath.RetainAppend | probe-path/src/lib.rs:106-114 | retention distributes over concatenation, so survivors keep their relative order |
| ProbePath.RetainNoMatch | probe-path/src/lib.rs:106-114 | a response matching no entry leaves the list unchanged |
| ProbePath.RetainRemovesMatching | probe-path/src/lib.rs:106-114 | the list shrinks by exactly the number of matching entries |
| ProbePath.RetainIdempotent | probe-path/src/lib.rs:106-114 | a repeated response removes nothing more |
| ProbePath.ChallengeResponse | probe-path/src/lib.rs:82-121 | request, reserve (x, t) and response x: gate opens, then closes, the entry is appended, and the response restores the earlier list |
| ProbePath.OtherResponseKeepsChallenge | probe-path/src/lib.rs:106-113 | a response with another nonce leaves an entry pending |
| ProbePath.DrawnNonceGoesOut | probe-path/src/lib.rs:42-56 | the nonce prepare draws is the one written on the wire after type 0x1a, and the one recorded last on reservation |
| MaxData.Process | max-data/src/lib.rs:10-22 | on success the limit is max(old, frame value); it never decreases; a non-increasing frame changes nothing; -1/-2/-3 for a non-MAX_DATA input, a failed read and a failed write |
| MaxData.Idempotent | max-data/src/lib.rs:17-21 | applying a frame twice equals applying it once |
| MaxData.MaxOfIsMaximum | max-data/src/lib.rs:17-21 | the reference maximum bounds the start value and every limit, and is one of them |
| MaxData.RunReachesMaximum | max-data/src/lib.rs:17-21 | after any sequence of frames the limit is their maximum with the start value |
| CapabilityBus.CallPaddingToggle | super-frame/src/lib.rs:187-194 | a call succeeds iff it names capability 0x80001 and the padding plugin is installed, and then sets its `enable` to the argument; a failed call changes nothing |
| CapabilityBus.ProcessFrame | super-frame/src/lib.rs:185-199 | at cnt 4 with padding installed, padding `enable` becomes the old `flip`, `flip` negates and cnt is 1; without it cnt becomes 5; otherwise cnt grows mod 256 and nothing else changes |
| CapabilityBus.AdvanceWithoutCall | super-frame/src/lib.rs:186-196 | while the counter avoids 4, frames only advance it mod 256 |
| CapabilityBus.PeriodAfterToggle | super-frame/src/lib.rs:186-196 | after a toggle the next one comes 4 frames later and passes the negated flag |
| CapabilityBus.FreshConnectionCadence | super-frame/src/lib.rs:186-196 | from a fresh connection, frame 5 disables padding and frame 9 re-enables it |
| CapabilityBus.MissedCallWaitsForWrap | super-frame/src/lib.rs:186-196 | if the padding plugin is absent at cnt 4, the counter avoids 4 for the next 255 frames and reaches it again at frame 256 |

## Notes on the code's behaviour

- Cadence of `process_frame_42`. A toggle on every 5th processed frame
  would be expected, but the code resets `cnt` to 0 and then adds 1. So
  after the first toggle (frame 5) the next ones come every 4 frames
  (frames 9, 13, ...). The model follows the code; see
  `CapabilityBus.PeriodAfterToggle`.
- A failed toggle call at `cnt == 4` leaves `cnt` at 5. In a build without
  overflow checks the next call then waits for the u8 counter to wrap, 256
  frames later (see `CapabilityBus.MissedCallWaitsForWrap`). With overflow
  checks the increment from 255 panics first.
- Tags of `prepare_frame_42` and `parse_frame_42` enter the table before
  the frame is saved. When the save fails, the host never receives a frame
  naming the tag, so no notification can release it. Release exactly once
  holds only for frames whose save succeeded; see Findings.
- The ACK pacing gate records `last_sent` when it decides, not when the
  packet is sent. The model keeps this.
- The bdp receive path installs the peer's window without any bounds check.
  The model keeps this, apart from the truncation listed under Findings.

## Left out

- Plugin `init` functions: frame and transport-parameter registrations are
  constant data. The host's packet-building order (`FrameSendOrder`) is host
  code that is not part of this model.
- `decode_transport_parameter_aaaaaaaa`: it only enables the plugin and has
  no state to model.
- `log_frame_42`, `log_frame_bd`, every `penv.print`, and the logger plugin:
  they produce text and file output for diagnostics only.
- Host marshalling: input indices, `Bytes` tags and the length `put_bytes`
  returns. A put is one boolean meaning "the host took all the bytes".
- The random generators and their seeding from the clock. The nonce and the
  pause are parameters. The panic of `unwrap` when the padding plugin's
  generator was never seeded (`init` not run) is not modelled.
- The timer subsystem itself: the padding gate outputs the `TimerArm` it
  requests, and the caller decides when `OnTimeout` runs.
- The elapsed time that probe-path prints on a response (and a possible
  panic in the `now - *ct` subtraction). The response's time input is read but not used.
- The overflow of `UnixInstant + Duration` in the ACK gate. Times are
  unbounded naturals.
- SuperFrame.Process: assumes a build without overflow checks, so `cnt`
  wraps from 255 to 0. With overflow checks, the increment from 255 panics,
  which happens after a missed toggle call, 251 frames later.
- SuperFrame.Prepare: `tag_count` is a `nat`. The u64 wrap after 2^64 tags
  is not modelled, because it cannot happen on a real connection.
- The epoch input of the ACK gate is only checked for presence. The
  per-epoch host fields it selects arrive as inputs.
- The result of a capability call is success exactly when the callee is
  installed and returns 0. How the host maps other callee codes is not
  visible.
- Packet types are Initial, Handshake and Short. The gates only compare
  against Short and Handshake.
- Event traces (`SuperFrameTrace`, `PrivacyPadding.Run`) leave out the
  callbacks that do not change plugin state: the super-frame gate, write
  and wire_len, the sentinel gate, the sentinel's prepare, the padding
  frame's prepare, write and wire_len, and the transport-parameter
  writers. The padding
  gate changes state and is part of the padding trace.
- PrivacyPadding.WireLenPadding: states the length only for frames shorter
  than 2^32 bytes. Longer lengths are truncated by `as usize`, and no
  prepared padding frame can be that long.

## Findings

| source | as written | input that shows it | evidently intended | confidence | as-written member | corrected member |
|---|---|---|---|---|---|---|
| super-frame/src/lib.rs:185-199 | `process_frame_42` never removes the tag `parse_frame_42` inserted, and no callback of the plugin releases a received frame's tag | any sequence of n received 0x42 frames leaves n more entries in the table | the tag released once the frame is processed, so the table returns to its size | low, not executed; host code that might release received tags some other way is not visible, and `log_frame_42` reads the entry | SuperFrameTrace.ReceivedTagsAccumulate | SuperFrame.ProcessReleasing |
| super-frame/src/lib.rs:97-106 | `prepare_frame_42` inserts the tag before `save_output`, and keeps it when the save fails | a failed save after n live tags leaves n + 1 tags, one of which no notification can name | the tag entered only once the frame is saved, so each tag is released exactly once | medium, not executed; how often the host refuses a save is not visible | SuperFrame.FailedSaveLeaksTag | SuperFrame.PrepareCorrected |
| super-frame/src/lib.rs:175-181 | `parse_frame_42` stores the read byte under the fresh tag before `save_output`, and keeps it when the save fails | a parsed frame whose save fails leaves one more tag, for a frame the host never processes | the byte stored only once the parsed frame is saved | medium, not executed; how often the host refuses a save is not visible | SuperFrame.FailedSaveLeaksTag | SuperFrame.ParseCorrected |
| bdp-frame/src/lib.rs:167-170 | `cwin_to_set as usize` keeps only the low 32 bits, because usize is 32 bits on the WebAssembly target | a BDP frame carrying 2^32 sets both cwnd and ssthresh to 0 | both set to the full received u64 value | medium, not executed; depends on a 32-bit target | BdpFrame.TruncatedWindow | BdpFrame.ProcessCorrected |

=== FILE: ack_frequency.dfy ===
/** The ACK-frequency plugin: the peer announces, in transport parameter
    0xff04de1b, the shortest interval it wants between two ACK frames; the
    plugin's ACK send gate then refuses to send an ACK sooner than that
    after the previous one. Times are microseconds. */
module AckFrequency {
  import opened Host
  import opened BigEndian
  import Varint

  const TransportParameterId: nat := 0xff04de1b
  /** Interval this endpoint asks for: 10 ms. */
  const AdvertisedMinAck: nat := 10000

  /** `minAck` is the peer's interval once its parameter has been decoded;
      `lastSent` the time of the last positive decision. */
  datatype State = State(minAck: Option<nat>, lastSent: Option<nat>)

  const Init: State := State(None, None)

  /** decode_transport_parameter_ff04de1b: `read` is the parameter value as
      the host hands it over. It is left-padded with zeros to eight bytes
      and read big-endian; more than eight bytes make `8 - len` underflow,
      which panics with overflow checks on; without them the wrapped length
      either fails the `vec!` allocation or leaves a vector that is not eight
      bytes long, and `try_into().unwrap()` panics. Either way it panics. */
  function DecodeTransportParameter(s: State, buffer: bool, read: Option<seq<u8>>): (r: Update<State>)
    ensures !buffer ==> r == Update(s, Failed(-1))
    ensures buffer && read.None? ==> r == Update(s, Failed(-2))
    ensures buffer && read.Some? && |read.value| > 8 ==> r.status == Panic && r.state == s
    ensures buffer && read.Some? && |read.value| <= 8 ==>
      && r.status == Ok
      && r.state.minAck == Some(FromBE(read.value))
      && r.state.minAck.value < Pow256(8)
    ensures r.state.lastSent == s.lastSent
  {
    if !buffer then Update(s, Failed(-1))
    else if read.None? then Update(s, Failed(-2))
    else if |read.value| > 8 then Update(s, Panic)
    else
      var padded := Zeros(8 - |read.value|) + read.value;
      LeadingZeros(8 - |read.value|, read.value);
      Update(s.(minAck := Some(FromBE(padded))), Ok)
  }

  /** The parameter this endpoint sends: the id as an 8-byte varint, a
      length of 2, and 10000 as two big-endian bytes. */
  function TransportParameterBytes(): seq<u8> {
    [0xc0, 0x00, 0x00, 0x00, 0xff, 0x04, 0xde, 0x1b, 0x02, 0x27, 0x10]
  }

  /** write_transport_parameter_ff04de1b. */
  function WriteTransportParameter(buffer: bool, putOk: bool): (r: Reply<seq<u8>>)
    ensures !buffer ==> r == Reply(Failed(-1), None)
    ensures buffer && !putOk ==> r == Reply(Failed(-4), None)
    ensures buffer && putOk ==> r.status == Ok && r.out.Some?
    ensures r.out.Some? ==>
      && |r.out.value| == 11
      && Varint.Decode(r.out.value) == Some((TransportParameterId, 8))
      && Varint.Shortest(TransportParameterId, 8)
      && r.out.value[8] == |r.out.value[9..]|
      && FromBE(r.out.value[9..]) == AdvertisedMinAck
  {
    if !buffer then Reply(Failed(-1), None)
    else if !putOk then Reply(Failed(-4), None)
    else
      var bytes := TransportParameterBytes();
      assert bytes == Varint.Encode(TransportParameterId, 8) + bytes[8..];
      Varint.DecodeEncode(TransportParameterId, 8, bytes[8..]);
      assert bytes[9..] == [0x27, 0x10];
      Reply(Ok, Some(bytes))
  }

  /** What the gate requires besides pacing: an ACK is owed in this packet
      number space, an ack-eliciting packet arrived, and the connection is
      not closing unless this is a Handshake packet. */
  predicate Needed(needAck: bool, ackElicited: bool, isClosing: bool, pktType: PacketType) {
    needAck && ackElicited && (!isClosing || pktType == Handshake)
  }

  /** Sending now would come sooner than the negotiated interval after the
      previous ACK. */
  predicate TooSoon(s: State, now: nat) {
    s.minAck.Some? && s.lastSent.Some? && s.lastSent.value + s.minAck.value > now
  }

  /** should_send_frame_2, the gate of the standard ACK frame. The host
      inputs are read in the order now, packet type, epoch, ack-elicited,
      need-ack, closing; the first missing one decides the error code. A
      positive decision records `now` as the last send time before the
      decision is saved. */
  function ShouldSendAck(s: State, now: Option<nat>, pktType: Option<PacketType>, epoch: Option<PacketNumberSpace>,
                         ackElicited: Option<bool>, needAck: Option<bool>, isClosing: Option<bool>,
                         saveOk: bool): (r: Step<State, bool>)
    ensures now.None? ==> r == Step(s, Failed(-7), None)
    ensures now.Some? && pktType.None? ==> r == Step(s, Failed(-1), None)
    ensures now.Some? && pktType.Some? && epoch.None? ==> r == Step(s, Failed(-9), None)
    ensures now.Some? && pktType.Some? && epoch.Some? && ackElicited.None? ==> r == Step(s, Failed(-4), None)
    ensures now.Some? && pktType.Some? && epoch.Some? && ackElicited.Some? && needAck.None? ==> r == Step(s, Failed(-3), None)
    ensures now.Some? && pktType.Some? && epoch.Some? && ackElicited.Some? && needAck.Some? && isClosing.None? ==>
      r == Step(s, Failed(-2), None)
    ensures now.Some? && pktType.Some? && epoch.Some? && ackElicited.Some? && needAck.Some? && isClosing.Some? ==>
      var out := !TooSoon(s, now.value) && Needed(needAck.value, ackElicited.value, isClosing.value, pktType.value);
      && r.status == (if saveOk then Ok else Failed(-6))
      && r.out == (if saveOk then Some(out) else None)
      && r.state == (if out then s.(lastSent := Some(now.value)) else s)
    ensures r.state.minAck == s.minAck
  {
    if now.None? then Step(s, Failed(-7), None)
    else if pktType.None? then Step(s, Failed(-1), None)
    else if epoch.None? then Step(s, Failed(-9), None)
    else if ackElicited.None? then Step(s, Failed(-4), None)
    else if needAck.None? then Step(s, Failed(-3), None)
    else if isClosing.None? then Step(s, Failed(-2), None)
    else
      var base := needAck.value && ackElicited.value && (!isClosing.value || pktType.value == Handshake);
      var out := if s.minAck.Some? && s.lastSent.Some? then
                   if s.lastSent.value + s.minAck.value <= now.value then base else false
                 else base;
      var s' := if out then s.(lastSent := Some(now.value)) else s;
      if saveOk then Step(s', Ok, Some(out)) else Step(s', Failed(-6), None)
  }

  /** The gate with every host input present. */
  function Decide(s: State, now: nat, pktType: PacketType, ackElicited: bool, needAck: bool, isClosing: bool): Step<State, bool> {
    ShouldSendAck(s, Some(now), Some(pktType), Some(ApplicationSpace), Some(ackElicited), Some(needAck), Some(isClosing), true)
  }

  /** The parameter this endpoint writes, decoded by the same routine,
      yields the 10 ms it advertises. */
  lemma AdvertisedIntervalRoundTrip(s: State)
    ensures DecodeTransportParameter(s, true, Some(WriteTransportParameter(true, true).out.value[9..])).state.minAck
         == Some(AdvertisedMinAck)
  {
  }

  /** Pacing: after a positive decision at `t`, every decision before
      `t + minAck` is negative and leaves the state alone; from `t + minAck`
      on, only the base condition counts. */
  lemma PacedAfterSend(s: State, t: nat, now: nat, pktType: PacketType, pktType': PacketType,
                       ackElicited: bool, needAck: bool, isClosing: bool,
                       ackElicited': bool, needAck': bool, isClosing': bool)
    requires s.minAck.Some?
    requires Decide(s, t, pktType, ackElicited, needAck, isClosing).out == Some(true)
    ensures var s1 := Decide(s, t, pktType, ackElicited, needAck, isClosing).state;
      var r := Decide(s1, now, pktType', ackElicited', needAck', isClosing');
      && (now < t + s.minAck.value ==> r.out == Some(false) && r.state == s1)
      && (now >= t + s.minAck.value ==> r.out == Some(Needed(needAck', ackElicited', isClosing', pktType')))
  {
  }

  /** Without a negotiated interval, or before the first ACK, only the base
      condition counts. */
  lemma UnpacedWithoutHistory(s: State, now: nat, pktType: PacketType, ackElicited: bool, needAck: bool, isClosing: bool)
    requires s.minAck.None? || s.lastSent.None?
    ensures Decide(s, now, pktType, ackElicited, needAck, isClosing).out == Some(Needed(needAck, ackElicited, isClosing, pktType))
  {
  }

  /** With a 10 ms interval: an ACK at t0 is sent, one at t0 + 5 ms is not,
      one at t0 + 11 ms is. The boundary t0 + 10 ms is allowed. */
  lemma TenMillisecondScenario(t0: nat)
    ensures var s0 := DecodeTransportParameter(Init, true, Some([0x27, 0x10])).state;
      var a := Decide(s0, t0, Short, true, true, false);
      var b := Decide(a.state, t0 + 5000, Short, true, true, false);
      var c := Decide(b.state, t0 + 11000, Short, true, true, false);
      var d := Decide(a.state, t0 + 10000, Short, true, true, false);
      && a.out == Some(true) && b.out == Some(false) && c.out == Some(true) && d.out == Some(true)
  {
  }
}

=== FILE: bdp_frame.dfy ===
/** The bandwidth-delay-product plugin: a zero-length transport parameter
    0xbf marks the peer as able to take a 0xbd frame, which carries a
    congestion window as a big-endian u64. A client sends the frame once,
    again only after a loss; the receiver installs the carried value as
    both its congestion window and its slow-start threshold. */
module BdpFrame {
  import opened Host
  import opened BigEndian
  import Varint

  const FrameType: nat := 0xbd
  const TransportParameterId: nat := 0xbf
  /** Window the plugin advertises; nothing in the plugin changes it. */
  const AdvertisedCwin: u64 := 2000000

  datatype State = State(shouldSend: bool, previousCwin: u64, cwinToSet: u64)

  const Init: State := State(false, AdvertisedCwin, 0)

  datatype RecoveryField = CongestionWindow | Ssthresh

  /** One successful write into the host's recovery state. */
  datatype RecoverySet = RecoverySet(field: RecoveryField, value: nat)

  /** decode_transport_parameter_bf: receiving the parameter makes a client
      (the host says it is not a server) eligible to send the frame; a
      server, or a host that cannot say, leaves the flag alone. The plugin
      is enabled either way. */
  function DecodeTransportParameter(s: State, isServer: Option<bool>): (r: Step<State, HostRequest>)
    ensures r.status == Ok && r.out == Some(EnablePlugin)
    ensures isServer == Some(false) ==> r.state.shouldSend
    ensures isServer != Some(false) ==> r.state == s
    ensures r.state.(shouldSend := s.shouldSend) == s
  {
    var s' := if isServer == Some(false) then s.(shouldSend := true) else s;
    Step(s', Ok, Some(EnablePlugin))
  }

  /** write_transport_parameter_bf: the parameter id as a 2-byte varint and
      a zero length. */
  function WriteTransportParameter(buffer: bool, putOk: bool): (r: Reply<seq<u8>>)
    ensures !buffer ==> r == Reply(Failed(-1), None)
    ensures buffer && !putOk ==> r == Reply(Failed(-4), None)
    ensures buffer && putOk ==> r.status == Ok && r.out.Some?
    ensures r.out.Some? ==>
      && |r.out.value| == 3
      && Varint.Decode(r.out.value) == Some((TransportParameterId, 2))
      && Varint.Shortest(TransportParameterId, 2)
      && r.out.value[2..] == [0]
  {
    if !buffer then Reply(Failed(-1), None)
    else if !putOk then Reply(Failed(-4), None)
    else
      var bytes: seq<u8> := [0x40, 0xbf, 0x00];
      assert bytes == Varint.Encode(TransportParameterId, 2) + [0];
      Varint.DecodeEncode(TransportParameterId, 2, [0]);
      Reply(Ok, Some(bytes))
  }

  /** should_send_frame_bd: offer the frame on a short-header packet of an
      open connection while the plugin wants to send it. */
  function ShouldSend(s: State, pktType: Option<PacketType>, isClosing: Option<bool>, saveOk: bool): (r: Reply<bool>)
    ensures pktType.None? ==> r == Reply(Failed(-1), None)
    ensures pktType.Some? && isClosing.None? ==> r == Reply(Failed(-2), None)
    ensures pktType.Some? && isClosing.Some? && !saveOk ==> r == Reply(Failed(-3), None)
    ensures r.status == Ok <==> pktType.Some? && isClosing.Some? && saveOk
    ensures r.status == Ok ==>
      && r.out.Some?
      && (r.out.value <==> pktType.value == Short && !isClosing.value && s.shouldSend)
  {
    if pktType.None? then Reply(Failed(-1), None)
    else if isClosing.None? then Reply(Failed(-2), None)
    else if !saveOk then Reply(Failed(-3), None)
    else Reply(Ok, Some(pktType.value == Short && !isClosing.value && s.shouldSend))
  }

  /** prepare_frame_bd: the frame needs no tag (tag 0). */
  function Prepare(saveOk: bool): (r: Reply<ExtensionFrame>)
    ensures r.status == Ok <==> saveOk
    ensures !saveOk ==> r == Reply(Failed(-1), None)
    ensures saveOk ==> r.out == Some(ExtensionFrame(FrameType, 0))
  {
    if saveOk then Reply(Ok, Some(ExtensionFrame(FrameType, 0))) else Reply(Failed(-1), None)
  }

  /** The ten frame bytes: type 0xbd as a 2-byte varint, then the window. */
  function FrameBytes(cwin: u64): (b: seq<u8>)
    ensures |b| == 10
    ensures Varint.Decode(b) == Some((FrameType, 2)) && Varint.Shortest(FrameType, 2)
    ensures FromBE(b[2..]) == cwin
  {
    var b := [0x40, 0xbd] + ToBE(cwin, 8);
    assert b == Varint.Encode(FrameType, 2) + ToBE(cwin, 8);
    Varint.DecodeEncode(FrameType, 2, ToBE(cwin, 8));
    assert b[2..] == ToBE(cwin, 8);
    FromToBE(cwin, 8);
    b
  }

  /** write_frame_bd: `out` holds the bytes that reached the host buffer. */
  function Write(s: State, buffer: bool, putOk: bool, saveOk: bool): (r: Reply<seq<u8>>)
    ensures !buffer ==> r == Reply(Failed(-3), None)
    ensures buffer && !putOk ==> r == Reply(Failed(-4), None)
    ensures r.out.Some? <==> buffer && putOk
    ensures r.out.Some? ==>
      && r.status == (if saveOk then Ok else Failed(-5))
      && |r.out.value| == 10
      && r.out.value[..2] == [0x40, 0xbd]
      && FromBE(r.out.value[2..]) == s.previousCwin
  {
    if !buffer then Reply(Failed(-3), None)
    else if !putOk then Reply(Failed(-4), None)
    else Reply(if saveOk then Ok else Failed(-5), Some(FrameBytes(s.previousCwin)))
  }

  /** parse_frame_bd: `read` is the result of reading the eight bytes after
      the frame type; a read of any other length makes the conversion to
      `[u8; 8]` panic. The window is stored even when saving the frame fails. */
  function Parse(s: State, buffer: bool, read: Option<seq<u8>>, saveOk: bool): (r: Step<State, ExtensionFrame>)
    ensures !buffer ==> r == Step(s, Failed(-1), None)
    ensures buffer && read.None? ==> r == Step(s, Failed(-2), None)
    ensures buffer && read.Some? && |read.value| != 8 ==> r.status == Panic && r.state == s
    ensures buffer && read.Some? && |read.value| == 8 ==>
      && ToBE(r.state.cwinToSet, 8) == read.value
      && r.status == (if saveOk then Ok else Failed(-3))
    ensures r.state.(cwinToSet := s.cwinToSet) == s
    ensures r.out.Some? <==> r.status == Ok
    ensures r.out.Some? ==> r.out.value == ExtensionFrame(FrameType, 0)
  {
    if !buffer then Step(s, Failed(-1), None)
    else if read.None? then Step(s, Failed(-2), None)
    else if |read.value| != 8 then Step(s, Panic, None)
    else
      var v := FromBE(read.value);
      ToFromBE(read.value);
      var s' := s.(cwinToSet := v);
      if saveOk then Step(s', Ok, Some(ExtensionFrame(FrameType, 0)))
      else Step(s', Failed(-3), None)
  }

  /** process_frame_bd as written: the window is cast `as usize` before it
      reaches the host, which on the 32-bit target keeps its low 32 bits.
      `cwndOk` and `ssthreshOk` are whether the host accepts each write;
      `out` lists the writes that took effect. */
  function Process(s: State, cwndOk: bool, ssthreshOk: bool): (r: Reply<seq<RecoverySet>>)
    ensures !cwndOk ==> r == Reply(Failed(-1), Some([]))
    ensures cwndOk && !ssthreshOk ==> r == Reply(Failed(-2), Some([RecoverySet(CongestionWindow, AsUsize(s.cwinToSet))]))
    ensures r.status == Ok <==> cwndOk && ssthreshOk
    ensures r.status == Ok ==> r.out == Some([RecoverySet(CongestionWindow, AsUsize(s.cwinToSet)), RecoverySet(Ssthresh, AsUsize(s.cwinToSet))])
    ensures s.cwinToSet < 0x1_0000_0000 ==> forall w :: r.out.Some? && w in r.out.value ==> w.value == s.cwinToSet
  {
    ProcessWith(AsUsize(s.cwinToSet), cwndOk, ssthreshOk)
  }

  /** process_frame_bd with the window passed on in full: both writes carry
      exactly the received value, whatever it is. */
  function ProcessCorrected(s: State, cwndOk: bool, ssthreshOk: bool): (r: Reply<seq<RecoverySet>>)
    ensures !cwndOk ==> r == Reply(Failed(-1), Some([]))
    ensures r.status == Ok <==> cwndOk && ssthreshOk
    ensures forall w :: r.out.Some? && w in r.out.value ==> w.value == s.cwinToSet
    ensures r.status == Ok ==> r.out == Some([RecoverySet(CongestionWindow, s.cwinToSet), RecoverySet(Ssthresh, s.cwinToSet)])
  {
    ProcessWith(s.cwinToSet, cwndOk, ssthreshOk)
  }

  /** The two host writes of process_frame_bd, for a given value. */
  function ProcessWith(v: nat, cwndOk: bool, ssthreshOk: bool): Reply<seq<RecoverySet>> {
    if !cwndOk then Reply(Failed(-1), Some([]))
    else if !ssthreshOk then Reply(Failed(-2), Some([RecoverySet(CongestionWindow, v)]))
    else Reply(Ok, Some([RecoverySet(CongestionWindow, v), RecoverySet(Ssthresh, v)]))
  }

  /** wire_len_bd: the frame is always ten bytes. */
  function WireLen(saveOk: bool): (r: Reply<nat>)
    ensures r.status == (if saveOk then Ok else Failed(-1))
    ensures r.out.Some? <==> saveOk
  {
    if saveOk then Reply(Ok, Some(2 + 8)) else Reply(Failed(-1), None)
  }

  /** on_frame_reserved_bd: the frame is on its way; stop offering it.
      Always returns 0. */
  function OnFrameReserved(s: State): (s': State)
    ensures !s'.shouldSend
    ensures s'.(shouldSend := s.shouldSend) == s
  {
    s.(shouldSend := false)
  }

  /** notify_frame_bd: offer the frame again exactly when it was lost. */
  function Notify(s: State, isLost: Option<bool>): (r: Update<State>)
    ensures isLost.None? ==> r == Update(s, Failed(-1))
    ensures isLost.Some? ==> r.status == Ok && (r.state.shouldSend <==> isLost.value)
    ensures r.state.(shouldSend := s.shouldSend) == s
  {
    if isLost.None? then Update(s, Failed(-1)) else Update(s.(shouldSend := isLost.value), Ok)
  }

  /** The written frame is exactly as long as wire_len says. */
  lemma WireLenMatchesWrite(s: State, saveOk: bool)
    ensures WireLen(true).out == Some(|Write(s, true, true, saveOk).out.value|)
  {
  }

  /** Parsing the eight bytes after the type of a written frame recovers
      the sender's window. */
  lemma WriteParseRoundTrip(sender: State, receiver: State, saveOk: bool)
    ensures Parse(receiver, true, Some(Write(sender, true, true, true).out.value[2..]), saveOk).state.cwinToSet
         == sender.previousCwin
  {
    var bytes := Write(sender, true, true, true).out.value;
    var r := Parse(receiver, true, Some(bytes[2..]), saveOk).state;
    ToFromBE(bytes[2..]);
    FromToBE(r.cwinToSet, 8);
  }

  /** End to end, with the corrected process: the receiver's congestion
      window and slow-start threshold become exactly the sender's window. */
  lemma EndToEndCorrected(sender: State, receiver: State)
    ensures var rcv := Parse(receiver, true, Some(Write(sender, true, true, true).out.value[2..]), true).state;
      ProcessCorrected(rcv, true, true).out
      == Some([RecoverySet(CongestionWindow, sender.previousCwin), RecoverySet(Ssthresh, sender.previousCwin)])
  {
    WriteParseRoundTrip(sender, receiver, true);
  }

  /** End to end, as written: the value survives only below 2^32. */
  lemma EndToEndAsWritten(sender: State, receiver: State)
    requires sender.previousCwin < 0x1_0000_0000
    ensures var rcv := Parse(receiver, true, Some(Write(sender, true, true, true).out.value[2..]), true).state;
      Process(rcv, true, true).out
      == Some([RecoverySet(CongestionWindow, sender.previousCwin), RecoverySet(Ssthresh, sender.previousCwin)])
  {
    WriteParseRoundTrip(sender, receiver, true);
  }

  /** The truncation in action: a received window of 2^32 bytes installs a
      congestion window and threshold of zero. */
  lemma TruncatedWindow(s: State)
    requires s.cwinToSet == 0x1_0000_0000
    ensures Process(s, true, true).out == Some([RecoverySet(CongestionWindow, 0), RecoverySet(Ssthresh, 0)])
    ensures ProcessCorrected(s, true, true).out.value[0].value != Process(s, true, true).out.value[0].value
  {
  }

  /** Send once, resend only after a loss: after reservation the gate is
      closed; an acknowledgment keeps it closed, a loss reopens it. */
  lemma SendOnceUnlessLost(s: State, isLost: bool, pkt: PacketType, closing: bool)
    ensures ShouldSend(OnFrameReserved(s), Some(pkt), Some(closing), true).out == Some(false)
    ensures ShouldSend(Notify(OnFrameReserved(s), Some(isLost)).state, Some(pkt), Some(closing), true).out
         == Some(isLost && pkt == Short && !closing)
  {
  }

  /** Receiving the transport parameter as a client makes the frame eligible
      at the next short-header packet of an open connection, even from the
      initial state whose gate is closed; on a server the gate answers as
      it did before the parameter arrived. */
  lemma EnablementOpensGate(s: State, isServer: Option<bool>, pkt: Option<PacketType>, closing: Option<bool>, saveOk: bool)
    ensures ShouldSend(Init, Some(Short), Some(false), true).out == Some(false)
    ensures isServer == Some(false) ==>
      ShouldSend(DecodeTransportParameter(s, isServer).state, Some(Short), Some(false), true).out == Some(true)
    ensures isServer != Some(false) ==>
      ShouldSend(DecodeTransportParameter(s, isServer).state, pkt, closing, saveOk) == ShouldSend(s, pkt, closing, saveOk)
  {
  }
}

=== FILE: bigendian.dfy ===
/** Unsigned big-endian integers over byte sequences, as produced by Rust's
    `to_be_bytes` and consumed by `from_be_bytes`. */
module BigEndian {
  import opened Host

  function Pow256(n: nat): (r: nat)
    ensures r > 0
  {
    if n == 0 then 1 else 256 * Pow256(n - 1)
  }

  /** The value of a big-endian byte string. */
  function FromBE(s: seq<u8>): (r: nat)
    ensures r < Pow256(|s|)
  {
    if |s| == 0 then 0 else FromBE(s[..|s| - 1]) * 256 + s[|s| - 1]
  }

  /** The `n`-byte big-endian representation of `v`. */
  function ToBE(v: nat, n: nat): (r: seq<u8>)
    requires v < Pow256(n)
    ensures |r| == n
  {
    if n == 0 then [] else ToBE(v / 256, n - 1) + [v % 256]
  }

  /** Decoding an encoding gives the value back. */
  lemma {:induction false} FromToBE(v: nat, n: nat)
    requires v < Pow256(n)
    ensures FromBE(ToBE(v, n)) == v
  {
    if n > 0 {
      var r := ToBE(v, n);
      assert r[..n - 1] == ToBE(v / 256, n - 1);
      FromToBE(v / 256, n - 1);
    }
  }

  /** Encoding a decoded string gives the string back. */
  lemma {:induction false} ToFromBE(s: seq<u8>)
    ensures ToBE(FromBE(s), |s|) == s
  {
    if |s| > 0 {
      var init := s[..|s| - 1];
      ToFromBE(init);
      assert s == init + [s[|s| - 1]];
    }
  }

  /** The leading byte of an encoding of a value below 64 * 256^(n-1) is
      below 64 (so the two top bits are free for a varint length prefix). */
  lemma {:induction false} LeadingByteBelow64(v: nat, n: nat)
    requires n >= 1 && v < 64 * Pow256(n - 1)
    ensures ToBE(v, n)[0] < 64
  {
    if n > 1 {
      assert ToBE(v, n)[0] == ToBE(v / 256, n - 1)[0];
      LeadingByteBelow64(v / 256, n - 1);
    }
  }

  /** A string of zero bytes has value zero. */
  lemma {:induction false} ZerosValue(k: nat)
    ensures FromBE(Zeros(k)) == 0
  {
    if k > 0 {
      assert Zeros(k)[..k - 1] == Zeros(k - 1);
      ZerosValue(k - 1);
    }
  }

  /** Leading zero bytes do not change the value (the left padding the Rust
      code does before `u64::from_be_bytes` on a short input). */
  lemma {:induction false} LeadingZeros(k: nat, s: seq<u8>)
    ensures FromBE(Zeros(k) + s) == FromBE(s)
  {
    if |s| == 0 {
      assert Zeros(k) + s == Zeros(k);
      ZerosValue(k);
    } else {
      var t := Zeros(k) + s;
      assert t[..|t| - 1] == Zeros(k) + s[..|s| - 1];
      LeadingZeros(k, s[..|s| - 1]);
    }
  }
}

=== FILE: capability_bus.dfy ===
/** Capability 0x80001 between two plugins of one connection: the super-frame
    plugin's frame processing calls the privacy-padding plugin's control
    entry, which may not be installed. "Not installed" makes the host call
    fail, which the caller treats as the feature being absent. */
module CapabilityBus {
  import opened Host
  import SuperFrame
  import PrivacyPadding

  /** The two plugins' states; `pad` is None when the padding plugin is not
      installed on this connection. */
  datatype Plugins = Plugins(sf: SuperFrame.State, pad: Option<PrivacyPadding.State>)

  /** Invoking `capability` with one boolean argument: the host runs the
      padding plugin's control entry when the padding plugin is installed
      and registered that capability, and the call succeeds when that entry
      returns 0. Any other capability has no callee here, so the call
      fails and changes nothing. */
  function CallPaddingToggle(capability: nat, pad: Option<PrivacyPadding.State>, arg: bool): (r: (Option<PrivacyPadding.State>, bool))
    ensures r.1 <==> capability == PrivacyPadding.ControlCapability && pad.Some?
    ensures r.1 ==> r.0 == Some(pad.value.(enable := arg))
    ensures !r.1 ==> r.0 == pad
  {
    if capability != PrivacyPadding.ControlCapability || pad.None? then (pad, false)
    else
      var u := PrivacyPadding.Control(pad.value, Some(arg));
      (Some(u.state), u.status == Ok)
  }

  /** process_frame_42 with its capability call carried out. */
  function ProcessFrame(p: Plugins): (r: Plugins)
    ensures p.sf.cnt == SuperFrame.CallAt && p.pad.Some? ==>
      && r.pad == Some(p.pad.value.(enable := p.sf.flip))
      && r.sf.flip == !p.sf.flip && r.sf.cnt == 1
    ensures p.sf.cnt == SuperFrame.CallAt && p.pad.None? ==>
      && r.pad.None? && r.sf.flip == p.sf.flip && r.sf.cnt == SuperFrame.CallAt + 1
    ensures p.sf.cnt != SuperFrame.CallAt ==>
      && r.pad == p.pad && r.sf.flip == p.sf.flip && r.sf.cnt == (p.sf.cnt + 1) % 256
    ensures r.sf.frames == p.sf.frames && r.sf.tagCount == p.sf.tagCount && r.sf.inFlight == p.sf.inFlight
  {
    var sf := p.sf;
    if sf.cnt == SuperFrame.CallAt then
      var (pad', ok) := CallPaddingToggle(SuperFrame.PaddingToggle, p.pad, sf.flip);
      Plugins(SuperFrame.Process(sf, ok).state, pad')
    else Plugins(SuperFrame.Process(sf, false).state, p.pad)
  }

  /** `n` frames processed one after another. */
  function ProcessFrames(p: Plugins, n: nat): Plugins
    decreases n
  {
    if n == 0 then p else ProcessFrames(ProcessFrame(p), n - 1)
  }

  /** The counter value `j` frames after `c`, with u8 wrap-around. */
  function CountAfter(c: u8, j: nat): u8 {
    (c + j) % 256
  }

  /** While the counter does not pass through `CallAt`, frames only advance
      it: no call is made and neither plugin's flag changes. */
  lemma {:induction false} AdvanceWithoutCall(p: Plugins, k: nat)
    requires forall j :: 0 <= j < k ==> CountAfter(p.sf.cnt, j) != SuperFrame.CallAt
    ensures ProcessFrames(p, k).sf.cnt == CountAfter(p.sf.cnt, k)
    ensures ProcessFrames(p, k).sf.flip == p.sf.flip
    ensures ProcessFrames(p, k).pad == p.pad
    decreases k
  {
    if k > 0 {
      assert CountAfter(p.sf.cnt, 0) != SuperFrame.CallAt;
      var p1 := ProcessFrame(p);
      forall j | 0 <= j < k - 1
        ensures CountAfter(p1.sf.cnt, j) != SuperFrame.CallAt
      {
        assert CountAfter(p1.sf.cnt, j) == CountAfter(p.sf.cnt, j + 1);
      }
      AdvanceWithoutCall(p1, k - 1);
      assert CountAfter(p1.sf.cnt, k - 1) == CountAfter(p.sf.cnt, k);
    }
  }

  /** After a successful toggle the counter stands at 1, so the next toggle
      comes four frames later (not five) and passes the flipped flag. */
  lemma PeriodAfterToggle(p: Plugins)
    requires p.sf.cnt == 1 && p.pad.Some?
    ensures ProcessFrames(p, 3).pad == p.pad && ProcessFrames(p, 3).sf.cnt == SuperFrame.CallAt
    ensures ProcessFrames(p, 4).pad == Some(p.pad.value.(enable := p.sf.flip))
    ensures ProcessFrames(p, 4).sf.flip == !p.sf.flip && ProcessFrames(p, 4).sf.cnt == 1
  {
    forall j | 0 <= j < 3
      ensures CountAfter(p.sf.cnt, j) != SuperFrame.CallAt
    {
    }
    AdvanceWithoutCall(p, 3);
    assert ProcessFrames(p, 4) == ProcessFrame(ProcessFrames(p, 3)) by {
      ProcessFramesLast(p, 3);
    }
  }

  lemma {:induction false} ProcessFramesLast(p: Plugins, n: nat)
    ensures ProcessFrames(p, n + 1) == ProcessFrame(ProcessFrames(p, n))
    decreases n
  {
    if n > 0 {
      ProcessFramesLast(ProcessFrame(p), n - 1);
    }
  }

  /** From a fresh connection with both plugins installed: the 5th frame
      disables padding, the 9th enables it again. */
  lemma FreshConnectionCadence()
    ensures var p := Plugins(SuperFrame.Init, Some(PrivacyPadding.Init));
      && ProcessFrames(p, 4).pad == Some(PrivacyPadding.Init)
      && ProcessFrames(p, 5).pad == Some(PrivacyPadding.Init.(enable := false))
      && ProcessFrames(p, 8).pad == Some(PrivacyPadding.Init.(enable := false))
      && ProcessFrames(p, 9).pad == Some(PrivacyPadding.Init.(enable := true))
  {
    var p := Plugins(SuperFrame.Init, Some(PrivacyPadding.Init));
    forall j | 0 <= j < 4
      ensures CountAfter(p.sf.cnt, j) != SuperFrame.CallAt
    {
    }
    AdvanceWithoutCall(p, 4);
    ProcessFramesLast(p, 4);
    var p5 := ProcessFrames(p, 5);
    assert p5.sf.cnt == 1 && p5.sf.flip;
    PeriodAfterToggle(p5);
    assert ProcessFrames(p, 8) == ProcessFrames(p5, 3) by { ProcessFramesSplit(p, 5, 3); }
    assert ProcessFrames(p, 9) == ProcessFrames(p5, 4) by { ProcessFramesSplit(p, 5, 4); }
  }

  lemma {:induction false} ProcessFramesSplit(p: Plugins, m: nat, n: nat)
    ensures ProcessFrames(p, m + n) == ProcessFrames(ProcessFrames(p, m), n)
    decreases m
  {
    if m > 0 {
      ProcessFramesSplit(ProcessFrame(p), m - 1, n);
    }
  }

  /** Without the padding plugin, the frame that should have toggled moves
      the counter past `CallAt`; with the counter wrapping at 256 (a build
      without overflow checks), the next attempt comes 256 frames later. */
  lemma MissedCallWaitsForWrap(p: Plugins)
    requires p.sf.cnt == SuperFrame.CallAt && p.pad.None?
    ensures forall k :: 1 <= k < 256 ==> ProcessFrames(p, k).sf.cnt != SuperFrame.CallAt
    ensures ProcessFrames(p, 256).sf.cnt == SuperFrame.CallAt
    ensures ProcessFrames(p, 256).sf.flip == p.sf.flip
  {
    var p1 := ProcessFrame(p);
    assert p1.sf.cnt == 5 && p1.sf.flip == p.sf.flip;
    forall k | 1 <= k < 256
      ensures ProcessFrames(p, k).sf.cnt != SuperFrame.CallAt
    {
      forall j | 0 <= j < k - 1
        ensures CountAfter(p1.sf.cnt, j) != SuperFrame.CallAt
      {
      }
      AdvanceWithoutCall(p1, k - 1);
      ProcessFramesSplit(p, 1, k - 1);
    }
    forall j | 0 <= j < 255
      ensures CountAfter(p1.sf.cnt, j) != SuperFrame.CallAt
    {
    }
    AdvanceWithoutCall(p1, 255);
    ProcessFramesSplit(p, 1, 255);
  }
}

=== FILE: host.dfy ===
/** Shared vocabulary of the plugin host interface: byte-sized integers,
    packet types, callback status codes and the shapes of callback results.

    Every host call a plugin makes (reading an input, saving an output,
    writing bytes into a host buffer, setting a timer) is abstracted as a
    parameter of the callback: a read is an `Option` (None when the host
    refuses it) and a write is a `bool` (false when the host refuses it). */
module Host {

  datatype Option<+T> = None | Some(value: T)

  type u8 = x: int | 0 <= x < 0x100
  type u64 = x: int | 0 <= x < 0x1_0000_0000_0000_0000

  /** Rust `usize` on the 32-bit WebAssembly target the plugins are built for. */
  type usize = x: int | 0 <= x < 0x1_0000_0000

  /** Rust's `as usize` cast from an unsigned integer: keeps the low 32 bits. */
  function AsUsize(v: nat): (r: usize)
    ensures v < 0x1_0000_0000 ==> r == v
  {
    v % 0x1_0000_0000
  }

  /** Packet types a send gate can be asked about. */
  datatype PacketType = Initial | Handshake | Short

  /** Packet number spaces (epochs) a send gate can be asked about. */
  datatype PacketNumberSpace = InitialSpace | HandshakeSpace | ApplicationSpace

  /** Return code that asks the host to abandon building the current packet. */
  const AbortCode: int := -1000

  /** Outcome of one callback. `Failed` carries the exact negative code the
      callback returns; `Abort` is the packet-abort sentinel; `Panic` is a
      Rust panic (a trap of the sandboxed module), which returns no code. */
  datatype Status = Ok | Abort | Failed(code: int) | Panic {

    /** The integer the callback hands back to the host. */
    function Code(): int
      requires !Panic?
    {
      match this
      case Ok => 0
      case Abort => AbortCode
      case Failed(c) => c
    }
  }

  /** Result of a callback that updates plugin state and hands a value to the
      host; `out` is None when nothing reached the host. */
  datatype Step<S, T> = Step(state: S, status: Status, out: Option<T>)

  /** Result of a callback that updates plugin state and outputs nothing. */
  datatype Update<S> = Update(state: S, status: Status)

  /** Result of a callback that leaves plugin state untouched. */
  datatype Reply<T> = Reply(status: Status, out: Option<T>)

  /** The host-side record of an extension frame: its type and its tag. */
  datatype ExtensionFrame = ExtensionFrame(frameType: nat, tag: nat)

  /** Requests a callback makes of the host besides its output. */
  datatype HostRequest = EnablePlugin

  /** A one-shot timer request: fire callback `timerId` of plugin timer
      group `id` at `deadline` (microseconds). */
  datatype TimerArm = TimerArm(deadline: nat, id: nat, timerId: nat)

  /** A sequence of `n` zero bytes. */
  function Zeros(n: nat): (r: seq<u8>)
    ensures |r| == n
    ensures forall i :: 0 <= i < n ==> r[i] == 0
  {
    seq(n, _ => 0)
  }
}

=== FILE: max_data.dfy ===
/** The MAX_DATA plugin: it replaces the host's processing of MAX_DATA
    frames (type 0x10). The connection's send limit MaxTxData only ever
    grows: a frame whose limit does not exceed the current one is ignored,
    as section 4.1 of RFC 9000 requires. */
module MaxData {
  import opened Host

  /** process_frame_10. `maxTx` is the connection's current limit; `frame`
      is the frame's maximum_data (None when the input is not a MAX_DATA
      frame); `readOk` and `setOk` are whether the host lets the plugin read
      and write the limit. The resulting state is the limit afterwards. */
  function Process(maxTx: u64, frame: Option<u64>, readOk: bool, setOk: bool): (r: Update<u64>)
    ensures frame.None? ==> r == Update(maxTx, Failed(-1))
    ensures frame.Some? && !readOk ==> r == Update(maxTx, Failed(-2))
    ensures frame.Some? && readOk && frame.value > maxTx && !setOk ==> r == Update(maxTx, Failed(-3))
    ensures r.status == Ok <==> frame.Some? && readOk && (frame.value <= maxTx || setOk)
    ensures r.status == Ok ==> r.state >= maxTx && r.state >= frame.value && (r.state == maxTx || r.state == frame.value)
    ensures r.state >= maxTx
    ensures frame.Some? && frame.value <= maxTx ==> r.state == maxTx
  {
    if frame.None? then Update(maxTx, Failed(-1))
    else if !readOk then Update(maxTx, Failed(-2))
    else if frame.value > maxTx then
      if setOk then Update(frame.value, Ok) else Update(maxTx, Failed(-3))
    else Update(maxTx, Ok)
  }

  /** The limit after a frame the host lets the plugin apply. */
  function Apply(maxTx: u64, limit: u64): u64 {
    Process(maxTx, Some(limit), true, true).state
  }

  /** Applying the same frame twice is applying it once. */
  lemma Idempotent(maxTx: u64, limit: u64)
    ensures Apply(Apply(maxTx, limit), limit) == Apply(maxTx, limit)
  {
  }

  /** The largest of a starting value and a sequence of limits. */
  function MaxOf(start: u64, limits: seq<u64>): (m: u64)
    decreases |limits|
  {
    if |limits| == 0 then start
    else MaxOf(if limits[0] > start then limits[0] else start, limits[1..])
  }

  /** Order-insensitive description of MaxOf: an upper bound reached by one
      of the candidates. */
  lemma {:induction false} MaxOfIsMaximum(start: u64, limits: seq<u64>)
    ensures MaxOf(start, limits) >= start
    ensures forall i :: 0 <= i < |limits| ==> MaxOf(start, limits) >= limits[i]
    ensures MaxOf(start, limits) == start || MaxOf(start, limits) in limits
    decreases |limits|
  {
    if |limits| > 0 {
      var next := if limits[0] > start then limits[0] else start;
      MaxOfIsMaximum(next, limits[1..]);
      assert forall i :: 1 <= i < |limits| ==> limits[i] == limits[1..][i - 1];
    }
  }

  /** A run of frames the host lets the plugin apply. */
  function Run(maxTx: u64, limits: seq<u64>): u64
    decreases |limits|
  {
    if |limits| == 0 then maxTx else Run(Apply(maxTx, limits[0]), limits[1..])
  }

  /** After any run of frames, the limit is the largest limit seen, so it
      never decreased. */
  lemma {:induction false} RunReachesMaximum(maxTx: u64, limits: seq<u64>)
    ensures Run(maxTx, limits) == MaxOf(maxTx, limits)
    ensures Run(maxTx, limits) >= maxTx
    ensures forall i :: 0 <= i < |limits| ==> Run(maxTx, limits) >= limits[i]
    decreases |limits|
  {
    if |limits| > 0 {
      RunReachesMaximum(Apply(maxTx, limits[0]), limits[1..]);
    }
    MaxOfIsMaximum(maxTx, limits);
  }
}

=== FILE: privacy_padding.dfy ===
/** The privacy-padding plugin: two cooperating frame registrations. A
    padding frame (type 0x0, sent last) fills the rest of every packet its
    gate accepts with zero bytes; on a short-header packet of an
    established connection the gate also raises `stopSending` and arms
    timer 7 after a random pause. While `stopSending` is up, a sentinel
    registration (type 0xaaaa, polled first) is offered, and preparing it
    returns the abort code, which makes the host abandon the packet.
    Capability 0x80001 turns the whole mechanism on or off. */
module PrivacyPadding {
  import opened Host

  /** The capability under which plugin_control_80001 is registered. */
  const ControlCapability: nat := 0x80001
  /** Upper bound (exclusive) of the random pause, in microseconds. */
  const MaxPause: nat := 10000
  /** Timer group and timer id armed by the padding gate. */
  const TimerGroup: nat := 1
  const TimerId: nat := 7

  datatype State = State(stopSending: bool, enable: bool)

  const Init: State := State(false, true)

  /** A padding frame of `length` zero bytes. */
  datatype PaddingFrame = PaddingFrame(length: u64)

  /** Result of the padding gate: besides the decision it may arm a timer. */
  datatype GateStep = GateStep(state: State, status: Status, out: Option<bool>, timer: Option<TimerArm>)

  /** should_send_frame_0. Inputs are the packet type, the bytes left in the
      packet, the current time (microseconds) and whether the connection is
      established; `pause` is the random draw below `MaxPause`, `timerOk`
      whether the host accepts the timer. */
  function PaddingGate(s: State, pktType: Option<PacketType>, left: Option<usize>, now: Option<nat>,
                       established: Option<bool>, pause: nat, timerOk: bool, saveOk: bool): (r: GateStep)
    requires pause < MaxPause
    ensures pktType.None? ==> r == GateStep(s, Failed(-1), None, None)
    ensures pktType.Some? && left.None? ==> r == GateStep(s, Failed(-2), None, None)
    ensures pktType.Some? && left.Some? && now.None? ==> r == GateStep(s, Failed(-3), None, None)
    ensures pktType.Some? && left.Some? && now.Some? && established.None? ==> r == GateStep(s, Failed(-5), None, None)
    ensures pktType.Some? && left.Some? && now.Some? && established.Some? ==>
      var trigger := pktType.value == Short && established.value;
      && r.state == (if trigger then s.(stopSending := true) else s)
      && r.timer == (if trigger && timerOk then Some(TimerArm(now.value + pause, TimerGroup, TimerId)) else None)
      && r.status == (if trigger && !timerOk then Failed(-6) else if !saveOk then Failed(-4) else Ok)
    ensures r.timer.Some? ==> now.Some? && now.value <= r.timer.value.deadline < now.value + MaxPause
    ensures r.out.Some? <==> r.status == Ok
    ensures r.status == Ok ==> (r.out.value <==> left.value > 0 && (pktType.value != Short || s.enable))
  {
    if pktType.None? then GateStep(s, Failed(-1), None, None)
    else if left.None? then GateStep(s, Failed(-2), None, None)
    else if now.None? then GateStep(s, Failed(-3), None, None)
    else if established.None? then GateStep(s, Failed(-5), None, None)
    else
      var out := left.value > 0 && (pktType.value != Short || s.enable);
      if pktType.value == Short && established.value then
        var s' := s.(stopSending := true);
        if !timerOk then GateStep(s', Failed(-6), None, None)
        else
          var timer := Some(TimerArm(now.value + pause, TimerGroup, TimerId));
          if saveOk then GateStep(s', Ok, Some(out), timer) else GateStep(s', Failed(-4), None, timer)
      else if saveOk then GateStep(s, Ok, Some(out), None)
      else GateStep(s, Failed(-4), None, None)
  }

  /** should_send_frame_aaaa: the sentinel is offered while the plugin is
      enabled and sending is paused. */
  function SentinelGate(s: State, saveOk: bool): (r: Reply<bool>)
    ensures r.status == (if saveOk then Ok else Failed(-4))
    ensures r.out.Some? <==> saveOk
    ensures saveOk ==> (r.out.value <==> s.enable && s.stopSending)
  {
    if saveOk then Reply(Ok, Some(s.enable && s.stopSending)) else Reply(Failed(-4), None)
  }

  /** prepare_frame_0: a padding frame as long as the space left. */
  function PreparePadding(left: Option<usize>, saveOk: bool): (r: Reply<PaddingFrame>)
    ensures left.None? ==> r == Reply(Failed(-2), None)
    ensures left.Some? ==> r.status == (if saveOk then Ok else Failed(-1))
    ensures r.out.Some? <==> left.Some? && saveOk
    ensures r.out.Some? ==> r.out.value.length == left.value
  {
    if left.None? then Reply(Failed(-2), None)
    else if !saveOk then Reply(Failed(-1), None)
    else Reply(Ok, Some(PaddingFrame(left.value)))
  }

  /** wire_len_0: the frame's length, cast `as usize`. `frame` is None when
      the input is not a padding frame. */
  function WireLenPadding(frame: Option<PaddingFrame>, saveOk: bool): (r: Reply<usize>)
    ensures frame.None? ==> r == Reply(Failed(-2), None)
    ensures frame.Some? ==> r.status == (if saveOk then Ok else Failed(-1))
    ensures r.out.Some? <==> frame.Some? && saveOk
    ensures r.out.Some? && frame.value.length < 0x1_0000_0000 ==> r.out.value == frame.value.length
  {
    if frame.None? then Reply(Failed(-2), None)
    else if !saveOk then Reply(Failed(-1), None)
    else Reply(Ok, Some(AsUsize(frame.value.length)))
  }

  /** write_frame_0: as many zero bytes as the frame's (usize) length. */
  function WritePadding(frame: Option<PaddingFrame>, buffer: bool, putOk: bool, saveOk: bool): (r: Reply<seq<u8>>)
    ensures frame.None? ==> r == Reply(Failed(-2), None)
    ensures frame.Some? && !buffer ==> r == Reply(Failed(-3), None)
    ensures frame.Some? && buffer && !putOk ==> r == Reply(Failed(-4), None)
    ensures r.out.Some? <==> frame.Some? && buffer && putOk
    ensures r.out.Some? ==>
      && r.status == (if saveOk then Ok else Failed(-1))
      && |r.out.value| == AsUsize(frame.value.length)
      && forall i :: 0 <= i < |r.out.value| ==> r.out.value[i] == 0
  {
    if frame.None? then Reply(Failed(-2), None)
    else if !buffer then Reply(Failed(-3), None)
    else if !putOk then Reply(Failed(-4), None)
    else Reply(if saveOk then Ok else Failed(-1), Some(Zeros(AsUsize(frame.value.length))))
  }

  /** prepare_frame_aaaa: the sentinel exists only to abort the packet. */
  function PrepareSentinel(): (st: Status)
    ensures st.Abort? && st.Code() == AbortCode
  {
    Abort
  }

  /** on_plugin_timeout_7: the pause is over. Always returns 0. */
  function OnTimeout(s: State): (s': State)
    ensures !s'.stopSending && s'.enable == s.enable
  {
    s.(stopSending := false)
  }

  /** plugin_control_80001: switch the plugin on or off. */
  function Control(s: State, enable: Option<bool>): (r: Update<State>)
    ensures enable.None? ==> r == Update(s, Failed(-2))
    ensures enable.Some? ==> r.status == Ok && r.state.enable == enable.value && r.state.stopSending == s.stopSending
  {
    if enable.None? then Update(s, Failed(-2)) else Update(s.(enable := enable.value), Ok)
  }

  /** A prepared padding frame fills exactly the space left: wire_len and
      the written bytes both equal it. */
  lemma PaddingFillsSpace(left: usize, saveOk: bool)
    ensures var f := PreparePadding(Some(left), true).out;
      && WireLenPadding(f, saveOk).out == (if saveOk then Some(left) else None)
      && WritePadding(f, true, true, saveOk).out == Some(Zeros(left))
  {
  }

  /** The callbacks that change the plugin state. */
  datatype Event =
    | Gate(pktType: Option<PacketType>, left: Option<usize>, now: Option<nat>, established: Option<bool>,
           pause: nat, timerOk: bool, saveOk: bool)
    | Timeout
    | Toggle(enable: Option<bool>)

  predicate WellFormed(e: Event) {
    e.Gate? ==> e.pause < MaxPause
  }

  function Apply(s: State, e: Event): State
    requires WellFormed(e)
  {
    match e
    case Gate(p, l, n, est, pause, t, ok) => PaddingGate(s, p, l, n, est, pause, t, ok).state
    case Timeout => OnTimeout(s)
    case Toggle(en) => Control(s, en).state
  }

  function Run(s: State, evs: seq<Event>): State
    requires forall i :: 0 <= i < |evs| ==> WellFormed(evs[i])
    decreases |evs|
  {
    if |evs| == 0 then s else Run(Apply(s, evs[0]), evs[1..])
  }

  /** Once the padding gate has paused sending, the pause lasts until timer 7
      fires, whatever else happens: until then the sentinel is offered
      whenever the plugin is enabled, and preparing it aborts the packet. */
  lemma {:induction false} PausedUntilTimeout(s: State, evs: seq<Event>)
    requires s.stopSending
    requires forall i :: 0 <= i < |evs| ==> WellFormed(evs[i]) && !evs[i].Timeout?
    ensures Run(s, evs).stopSending
    ensures SentinelGate(Run(s, evs), true).out == Some(Run(s, evs).enable)
    decreases |evs|
  {
    if |evs| > 0 {
      PausedUntilTimeout(Apply(s, evs[0]), evs[1..]);
    }
  }

  /** The trigger: a short-header packet on an established connection pauses
      sending, and the next sentinel poll aborts packets while enabled. */
  lemma TriggerPauses(s: State, left: usize, now: nat, pause: nat)
    requires pause < MaxPause
    ensures var g := PaddingGate(s, Some(Short), Some(left), Some(now), Some(true), pause, true, true);
      && g.state.stopSending
      && g.timer == Some(TimerArm(now + pause, TimerGroup, TimerId))
      && SentinelGate(g.state, true).out == Some(s.enable)
  {
  }
}

=== FILE: probe_path.dfy ===
/** The path-probing plugin: on request (capability 0x1) it sends one
    PATH_CHALLENGE frame (section 19.17 of RFC 9000) carrying a random
    64-bit nonce, records the nonce with the time the frame was committed
    to a packet, and forgets every recorded challenge whose nonce a
    PATH_RESPONSE frame (section 19.18 of RFC 9000) echoes. */
module ProbePath {
  import opened Host
  import opened BigEndian

  const ChallengeType: nat := 0x1a

  /** An outstanding challenge: its nonce and when it was committed. */
  datatype Challenge = Challenge(nonce: u64, sentAt: nat)

  datatype State = State(needChallenge: bool, challengeTime: seq<Challenge>)

  const Init: State := State(false, [])

  /** should_send_frame_1a: offer a challenge on a short-header packet of an
      open connection once one has been requested. */
  function ShouldSend(s: State, pktType: Option<PacketType>, isClosing: Option<bool>, saveOk: bool): (r: Reply<bool>)
    ensures pktType.None? ==> r == Reply(Failed(-1), None)
    ensures pktType.Some? && isClosing.None? ==> r == Reply(Failed(-2), None)
    ensures pktType.Some? && isClosing.Some? && !saveOk ==> r == Reply(Failed(-3), None)
    ensures r.status == Ok <==> pktType.Some? && isClosing.Some? && saveOk
    ensures r.status == Ok ==>
      && r.out.Some?
      && (r.out.value <==> pktType.value == Short && !isClosing.value && s.needChallenge)
  {
    if pktType.None? then Reply(Failed(-1), None)
    else if isClosing.None? then Reply(Failed(-2), None)
    else if !saveOk then Reply(Failed(-3), None)
    else Reply(Ok, Some(pktType.value == Short && !isClosing.value && s.needChallenge))
  }

  /** prepare_frame_1a: a challenge with the random `nonce`. `clockOk` is
      whether the host gives the time used to seed the generator. */
  function Prepare(clockOk: bool, nonce: u64, saveOk: bool): (r: Reply<u64>)
    ensures r.status == (if clockOk && saveOk then Ok else Failed(-1))
    ensures r.out == (if clockOk && saveOk then Some(nonce) else None)
  {
    if !clockOk || !saveOk then Reply(Failed(-1), None) else Reply(Ok, Some(nonce))
  }

  /** write_frame_1a: the type byte followed by the nonce, big-endian.
      `frame` is the nonce of the input challenge (None when the input is
      not a PATH_CHALLENGE). */
  function Write(frame: Option<u64>, buffer: bool, putOk: bool, saveOk: bool): (r: Reply<seq<u8>>)
    ensures frame.None? ==> r == Reply(Failed(-1), None)
    ensures frame.Some? && !buffer ==> r == Reply(Failed(-3), None)
    ensures frame.Some? && buffer && !putOk ==> r == Reply(Failed(-4), None)
    ensures r.out.Some? <==> frame.Some? && buffer && putOk
    ensures r.out.Some? ==>
      && r.status == (if saveOk then Ok else Failed(-5))
      && |r.out.value| == 9
      && r.out.value[0] == ChallengeType
      && FromBE(r.out.value[1..]) == frame.value
  {
    if frame.None? then Reply(Failed(-1), None)
    else if !buffer then Reply(Failed(-3), None)
    else if !putOk then Reply(Failed(-4), None)
    else
      var bytes := [ChallengeType as u8] + ToBE(frame.value, 8);
      assert bytes[1..] == ToBE(frame.value, 8);
      FromToBE(frame.value, 8);
      Reply(if saveOk then Ok else Failed(-5), Some(bytes))
  }

  /** on_frame_reserved_1a: the challenge is committed at `now`; record it
      and drop the request. */
  function OnFrameReserved(s: State, frame: Option<u64>, now: Option<nat>): (r: Update<State>)
    ensures frame.None? ==> r == Update(s, Failed(-1))
    ensures frame.Some? && now.None? ==> r == Update(s, Failed(-2))
    ensures frame.Some? && now.Some? ==>
      && r.status == Ok
      && !r.state.needChallenge
      && |r.state.challengeTime| == |s.challengeTime| + 1
      && r.state.challengeTime[..|s.challengeTime|] == s.challengeTime
      && r.state.challengeTime[|s.challengeTime|] == Challenge(frame.value, now.value)
  {
    if frame.None? then Update(s, Failed(-1))
    else if now.None? then Update(s, Failed(-2))
    else Update(State(false, s.challengeTime + [Challenge(frame.value, now.value)]), Ok)
  }

  /** The challenges that do not carry `nonce`, in their original order. */
  function Retain(cs: seq<Challenge>, nonce: u64): (r: seq<Challenge>)
    ensures |r| <= |cs|
    ensures forall c :: c in r <==> c in cs && c.nonce != nonce
  {
    if |cs| == 0 then []
    else (if cs[0].nonce == nonce then [] else [cs[0]]) + Retain(cs[1..], nonce)
  }

  /** pre_process_frame_1b: a PATH_RESPONSE (type 0x1b) echoing `frame` settles every
      challenge with that nonce. The host time is read, as the plugin
      reports the elapsed time, but does not affect the state. */
  function PreProcessResponse(s: State, frame: Option<u64>, now: Option<nat>): (r: Update<State>)
    ensures frame.None? ==> r == Update(s, Failed(-1))
    ensures frame.Some? && now.None? ==> r == Update(s, Failed(-2))
    ensures frame.Some? && now.Some? ==>
      && r.status == Ok
      && r.state.needChallenge == s.needChallenge
      && r.state.challengeTime == Retain(s.challengeTime, frame.value)
  {
    if frame.None? then Update(s, Failed(-1))
    else if now.None? then Update(s, Failed(-2))
    else Update(s.(challengeTime := Retain(s.challengeTime, frame.value)), Ok)
  }

  /** plugin_control_1: request a challenge. Always returns 0. */
  function Control(s: State): (s': State)
    ensures s'.needChallenge && s'.challengeTime == s.challengeTime
  {
    s.(needChallenge := true)
  }

  /** Retain distributes over concatenation, so it keeps the surviving
      challenges in their relative order. */
  lemma {:induction false} RetainAppend(xs: seq<Challenge>, ys: seq<Challenge>, nonce: u64)
    ensures Retain(xs + ys, nonce) == Retain(xs, nonce) + Retain(ys, nonce)
    decreases |xs|
  {
    if |xs| > 0 {
      assert (xs + ys)[1..] == xs[1..] + ys;
      RetainAppend(xs[1..], ys, nonce);
    } else {
      assert xs + ys == ys;
    }
  }

  /** A response whose nonce matches no challenge changes nothing. */
  lemma {:induction false} RetainNoMatch(cs: seq<Challenge>, nonce: u64)
    requires forall i :: 0 <= i < |cs| ==> cs[i].nonce != nonce
    ensures Retain(cs, nonce) == cs
    decreases |cs|
  {
    if |cs| > 0 {
      RetainNoMatch(cs[1..], nonce);
    }
  }

  /** Exactly the matching challenges go: as many as carry the nonce. */
  function Matching(cs: seq<Challenge>, nonce: u64): nat
    decreases |cs|
  {
    if |cs| == 0 then 0 else (if cs[0].nonce == nonce then 1 else 0) + Matching(cs[1..], nonce)
  }

  lemma {:induction false} RetainRemovesMatching(cs: seq<Challenge>, nonce: u64)
    ensures |Retain(cs, nonce)| == |cs| - Matching(cs, nonce)
    decreases |cs|
  {
    if |cs| > 0 {
      RetainRemovesMatching(cs[1..], nonce);
    }
  }

  /** A second identical response has nothing left to remove. */
  lemma RetainIdempotent(cs: seq<Challenge>, nonce: u64)
    ensures Retain(Retain(cs, nonce), nonce) == Retain(cs, nonce)
  {
    var r := Retain(cs, nonce);
    forall i | 0 <= i < |r|
      ensures r[i].nonce != nonce
    {
      assert r[i] in r;
    }
    RetainNoMatch(r, nonce);
  }

  /** The whole exchange: a request opens the gate; committing a challenge
      with nonce `x` at `t` closes it and records `(x, t)`; a response
      echoing `x` removes it again, leaving the challenges that were
      outstanding before (none of which carried `x`). */
  lemma ChallengeResponse(s: State, x: u64, t: nat, t': nat)
    requires forall i :: 0 <= i < |s.challengeTime| ==> s.challengeTime[i].nonce != x
    ensures ShouldSend(Control(s), Some(Short), Some(false), true).out == Some(true)
    ensures var sent := OnFrameReserved(Control(s), Some(x), Some(t)).state;
      && sent.challengeTime == s.challengeTime + [Challenge(x, t)]
      && ShouldSend(sent, Some(Short), Some(false), true).out == Some(false)
      && PreProcessResponse(sent, Some(x), Some(t')).state.challengeTime == s.challengeTime
  {
    var sent := OnFrameReserved(Control(s), Some(x), Some(t)).state;
    assert sent.challengeTime == s.challengeTime + [Challenge(x, t)];
    RetainAppend(s.challengeTime, [Challenge(x, t)], x);
    RetainNoMatch(s.challengeTime, x);
  }

  /** A response with another nonce leaves a recorded challenge pending. */
  lemma OtherResponseKeepsChallenge(s: State, c: Challenge, y: u64, now: nat)
    requires c in s.challengeTime && c.nonce != y
    ensures c in PreProcessResponse(s, Some(y), Some(now)).state.challengeTime
  {
  }

  /** The nonce drawn by prepare is the one the frame carries on the wire,
      and the one recorded, last, when the frame is committed at `t`. */
  lemma DrawnNonceGoesOut(s: State, x: u64, t: nat, saveOk: bool)
    ensures var w := Write(Prepare(true, x, true).out, true, true, saveOk);
      && w.out.Some? && w.out.value[0] == ChallengeType
      && FromBE(w.out.value[1..]) == x
    ensures var r := OnFrameReserved(s, Prepare(true, x, true).out, Some(t));
      && r.status == Ok
      && r.state.challengeTime == s.challengeTime + [Challenge(x, t)]
  {
  }
}

=== FILE: super_frame.dfy ===
/** The "super frame" plugin: an opaque extension frame of type 0x42 whose
    one-byte payload lives in a per-connection tag table rather than in the
    host's frame record. A tag is issued when a frame is prepared (send side)
    or parsed (receive side) and released when the host reports the frame
    acknowledged or lost. An in-flight flag keeps a second frame from being
    offered while one is outstanding, and every few processed frames the
    plugin calls capability 0x80001 to toggle the privacy-padding plugin. */
module SuperFrame {
  import opened Host
  import BigEndian
  import Varint

  const FrameType: nat := 0x42
  const TransportParameterId: nat := 0xaaaaaaaa
  /** Capability id of the padding plugin's enable switch. */
  const PaddingToggle: nat := 0x80001
  /** Value of `cnt` at which `process` calls the padding toggle. */
  const CallAt: u8 := 4

  /** Per-connection plugin state. `frames` maps a live tag to the payload
      byte of its frame. */
  datatype State = State(inFlight: bool, tagCount: nat, flip: bool, cnt: u8, frames: map<nat, u8>)

  const Init: State := State(false, 0, false, 0, map[])

  /** Every live tag was issued earlier, so the next tag is not live. */
  ghost predicate Valid(s: State) {
    forall t :: t in s.frames ==> t < s.tagCount
  }

  /** Transport parameter 0xaaaaaaaa: the parameter id as an 8-byte varint
      followed by a zero length. */
  function TransportParameterBytes(): seq<u8> {
    [0xc0, 0x00, 0x00, 0x00, 0xaa, 0xaa, 0xaa, 0xaa, 0x00]
  }

  /** write_transport_parameter_aaaaaaaa. `buffer` is whether the host hands
      over its output buffer, `putOk` whether it accepts all nine bytes. */
  function WriteTransportParameter(buffer: bool, putOk: bool): (r: Reply<seq<u8>>)
    ensures !buffer ==> r == Reply(Failed(-1), None)
    ensures buffer && !putOk ==> r == Reply(Failed(-4), None)
    ensures buffer && putOk ==> r.status == Ok && r.out.Some?
    ensures r.out.Some? ==>
      && Varint.Decode(r.out.value) == Some((TransportParameterId, 8))
      && Varint.Shortest(TransportParameterId, 8)
      && r.out.value[8..] == [0]
  {
    if !buffer then Reply(Failed(-1), None)
    else if !putOk then Reply(Failed(-4), None)
    else
      assert TransportParameterBytes() == Varint.Encode(TransportParameterId, 8) + [0];
      Varint.DecodeEncode(TransportParameterId, 8, [0]);
      Reply(Ok, Some(TransportParameterBytes()))
  }

  /** should_send_frame_42: offer a frame on a short-header packet of an open
      connection while no frame is in flight. */
  function ShouldSend(s: State, pktType: Option<PacketType>, isClosing: Option<bool>, saveOk: bool): (r: Reply<bool>)
    ensures pktType.None? ==> r == Reply(Failed(-1), None)
    ensures pktType.Some? && isClosing.None? ==> r == Reply(Failed(-2), None)
    ensures pktType.Some? && isClosing.Some? && !saveOk ==> r == Reply(Failed(-3), None)
    ensures r.status == Ok <==> pktType.Some? && isClosing.Some? && saveOk
    ensures r.status == Ok ==>
      && r.out.Some?
      && (r.out.value <==> pktType.value == Short && !isClosing.value && !s.inFlight)
  {
    if pktType.None? then Reply(Failed(-1), None)
    else if isClosing.None? then Reply(Failed(-2), None)
    else if !saveOk then Reply(Failed(-3), None)
    else Reply(Ok, Some(pktType.value == Short && !isClosing.value && !s.inFlight))
  }

  /** Issues the next tag and records `val` as its payload. */
  function Issue(s: State, val: u8): State {
    s.(tagCount := s.tagCount + 1, frames := s.frames[s.tagCount := val])
  }

  /** prepare_frame_42: issues a fresh tag whose payload is the tag's low
      byte. The table is updated even when saving the frame fails. */
  function Prepare(s: State, saveOk: bool): (r: Step<State, ExtensionFrame>)
    ensures r.state.tagCount == s.tagCount + 1
    ensures r.state.frames.Keys == s.frames.Keys + {s.tagCount}
    ensures r.state.frames[s.tagCount] == s.tagCount % 256
    ensures forall t :: t in s.frames && t != s.tagCount ==> r.state.frames[t] == s.frames[t]
    ensures Valid(s) ==> s.tagCount !in s.frames && Valid(r.state)
    ensures r.state.inFlight == s.inFlight && r.state.flip == s.flip && r.state.cnt == s.cnt
    ensures r.status == (if saveOk then Ok else Failed(-1))
    ensures r.out == (if saveOk then Some(ExtensionFrame(FrameType, s.tagCount)) else None)
  {
    var s' := Issue(s, s.tagCount % 256);
    if saveOk then Step(s', Ok, Some(ExtensionFrame(FrameType, s.tagCount)))
    else Step(s', Failed(-1), None)
  }

  /** parse_frame_42: `buffer` is whether the host hands over the frame
      bytes, `read` the result of reading one byte past the frame type. The
      tag is consumed as soon as the buffer is there, even if reading fails;
      a read that returns no byte makes the `val[0]` index panic. */
  function Parse(s: State, buffer: bool, read: Option<seq<u8>>, saveOk: bool): (r: Step<State, ExtensionFrame>)
    ensures !buffer ==> r == Step(s, Failed(-1), None)
    ensures buffer ==> r.state.tagCount == s.tagCount + 1
    ensures buffer && read.None? ==> r.status == Failed(-2) && r.state.frames == s.frames
    ensures buffer && read.Some? && |read.value| == 0 ==> r.status == Panic
    ensures r.state.frames != s.frames ==>
      && buffer && read.Some? && |read.value| > 0
      && r.state.frames == s.frames[s.tagCount := read.value[0]]
    ensures buffer && read.Some? && |read.value| > 0 ==>
      && r.state.frames.Keys == s.frames.Keys + {s.tagCount}
      && r.state.frames[s.tagCount] == read.value[0]
      && r.status == (if saveOk then Ok else Failed(-3))
    ensures r.status == Ok <==> buffer && read.Some? && |read.value| > 0 && saveOk
    ensures r.out.Some? <==> r.status == Ok
    ensures r.out.Some? ==> r.out.value == ExtensionFrame(FrameType, s.tagCount)
    ensures Valid(s) ==> s.tagCount !in s.frames && Valid(r.state)
    ensures r.state.inFlight == s.inFlight && r.state.flip == s.flip && r.state.cnt == s.cnt
  {
    if !buffer then Step(s, Failed(-1), None)
    else
      var counted := s.(tagCount := s.tagCount + 1);
      if read.None? then Step(counted, Failed(-2), None)
      else if |read.value| == 0 then Step(counted, Panic, None)
      else
        var s' := Issue(s, read.value[0]);
        if saveOk then Step(s', Ok, Some(ExtensionFrame(FrameType, s.tagCount)))
        else Step(s', Failed(-3), None)
  }

  /** process_frame_42: counts processed frames; when the count stands at
      `CallAt` it calls the padding toggle with `flip`, and only if that call
      succeeds flips `flip` and restarts the count. `callOk` is whether the
      capability call succeeded; `out` is the argument the call was made
      with. `cnt` is a Rust u8; the model wraps it at 256, as a build
      without overflow checks does (with them, the increment from 255
      panics). */
  function Process(s: State, callOk: bool): (r: Step<State, bool>)
    ensures r.status == Ok
    ensures r.out == (if s.cnt == CallAt then Some(s.flip) else None)
    ensures s.cnt == CallAt && callOk ==> r.state.flip == !s.flip && r.state.cnt == 1
    ensures !(s.cnt == CallAt && callOk) ==>
      r.state.flip == s.flip && r.state.cnt == (s.cnt + 1) % 256
    ensures r.state.frames == s.frames && r.state.tagCount == s.tagCount && r.state.inFlight == s.inFlight
  {
    var called := s.cnt == CallAt;
    var s1 := if called && callOk then s.(flip := !s.flip, cnt := 0) else s;
    Step(s1.(cnt := (s1.cnt + 1) % 256), Ok, if called then Some(s.flip) else None)
  }

  /** process_frame_42 followed by the release of the processed frame's tag,
      so that a received frame's tag, like a sent one's, ends its life once
      the frame reaches its terminal state. */
  function ProcessReleasing(s: State, tag: nat, callOk: bool): (r: Step<State, bool>)
    ensures r.state.frames.Keys == s.frames.Keys - {tag}
    ensures forall t :: t in r.state.frames ==> r.state.frames[t] == s.frames[t]
    ensures r.state.(frames := s.frames) == Process(s, callOk).state
    ensures r.status == Ok && r.out == Process(s, callOk).out
  {
    var p := Process(s, callOk);
    Step(p.state.(frames := p.state.frames - {tag}), p.status, p.out)
  }

  /** wire_len_42: a frame is three bytes long. */
  function WireLen(saveOk: bool): (r: Reply<nat>)
    ensures r.status == (if saveOk then Ok else Failed(-1))
    ensures r.out.Some? <==> saveOk
  {
    if saveOk then Reply(Ok, Some(2 + 1)) else Reply(Failed(-1), None)
  }

  /** write_frame_42. `frame` is the tag of the extension frame the host
      passes in (None when the input is not an extension frame); the bytes
      are the frame type as a 2-byte varint and the payload byte from the
      table. `out` holds the bytes that reached the host buffer. */
  function Write(s: State, frame: Option<nat>, buffer: bool, putOk: bool, saveOk: bool): (r: Reply<seq<u8>>)
    ensures frame.None? ==> r == Reply(Failed(-1), None)
    ensures frame.Some? && frame.value !in s.frames ==> r == Reply(Failed(-2), None)
    ensures frame.Some? && frame.value in s.frames && !buffer ==> r == Reply(Failed(-3), None)
    ensures frame.Some? && frame.value in s.frames && buffer && !putOk ==> r == Reply(Failed(-4), None)
    ensures r.out.Some? <==> frame.Some? && frame.value in s.frames && buffer && putOk
    ensures r.out.Some? ==>
      && r.status == (if saveOk then Ok else Failed(-5))
      && |r.out.value| == 3
      && Varint.Decode(r.out.value) == Some((FrameType, 2))
      && r.out.value[2] == s.frames[frame.value]
  {
    if frame.None? then Reply(Failed(-1), None)
    else if frame.value !in s.frames then Reply(Failed(-2), None)
    else if !buffer then Reply(Failed(-3), None)
    else if !putOk then Reply(Failed(-4), None)
    else
      var bytes: seq<u8> := [0x40, 0x42, s.frames[frame.value]];
      assert bytes == Varint.Encode(FrameType, 2) + [s.frames[frame.value]];
      Varint.DecodeEncode(FrameType, 2, [s.frames[frame.value]]);
      Reply(if saveOk then Ok else Failed(-5), Some(bytes))
  }

  /** on_frame_reserved_42: the host has committed the frame to a packet.
      Always returns 0. */
  function OnFrameReserved(s: State): (s': State)
    ensures s'.inFlight
    ensures s'.(inFlight := s.inFlight) == s
  {
    s.(inFlight := true)
  }

  /** notify_frame_42: the frame with tag `frame` was acknowledged or lost
      (`isLost`); either way its tag is released and nothing is in flight. */
  function Notify(s: State, frame: Option<nat>, isLost: Option<bool>): (r: Update<State>)
    ensures frame.None? ==> r == Update(s, Failed(-1))
    ensures frame.Some? && isLost.None? ==> r == Update(s, Failed(-2))
    ensures frame.Some? && isLost.Some? ==>
      && r.status == Ok
      && !r.state.inFlight
      && r.state.frames.Keys == s.frames.Keys - {frame.value}
      && (forall t :: t in r.state.frames ==> r.state.frames[t] == s.frames[t])
      && r.state.(inFlight := s.inFlight, frames := s.frames) == s
  {
    if frame.None? then Update(s, Failed(-1))
    else if isLost.None? then Update(s, Failed(-2))
    else Update(s.(frames := s.frames - {frame.value}, inFlight := false), Ok)
  }

  /** The written frame is exactly as long as wire_len says. */
  lemma WireLenMatchesWrite(s: State, tag: nat, saveOk: bool)
    requires tag in s.frames
    ensures Write(s, Some(tag), true, true, saveOk).out == Some([0x40, 0x42, s.frames[tag]])
    ensures WireLen(true).out == Some(|Write(s, Some(tag), true, true, saveOk).out.value|)
  {
  }

  /** A prepared frame, written, carries its tag's low byte; a parsed frame
      carries back the byte it was parsed from. */
  lemma PayloadRoundTrip(s: State, b: u8, saveOk: bool)
    ensures Write(Prepare(s, saveOk).state, Some(s.tagCount), true, true, true).out.value[2] == s.tagCount % 256
    ensures Write(Parse(s, true, Some([b]), saveOk).state, Some(s.tagCount), true, true, true).out.value[2] == b
  {
  }

  /** A frame whose save succeeded, once notified of its fate, leaves the
      tag table as it was: the tag is released exactly once. (A failed save
      hands no frame to the host, so no notification follows; see
      `FailedSaveLeaksTag`.) */
  lemma PrepareThenNotifyRestoresTable(s: State, isLost: bool)
    requires Valid(s)
    ensures Notify(Prepare(s, true).state, Some(s.tagCount), Some(isLost)).state.frames == s.frames
  {
    var after := Notify(Prepare(s, true).state, Some(s.tagCount), Some(isLost)).state;
    assert after.frames.Keys == s.frames.Keys;
  }

  /** As written, a failed save still leaves the fresh tag in the table,
      although the host received no frame naming it, so no notification can
      ever release it. The same holds for a parsed frame whose save fails. */
  lemma FailedSaveLeaksTag(s: State, b: u8)
    requires Valid(s)
    ensures var p := Prepare(s, false);
      && p.out.None? && s.tagCount !in s.frames && s.tagCount in p.state.frames
      && |p.state.frames| == |s.frames| + 1
    ensures var p := Parse(s, true, Some([b]), false);
      && p.out.None? && s.tagCount in p.state.frames
      && |p.state.frames| == |s.frames| + 1
  {
    var p := Prepare(s, false);
    assert p.state.frames.Keys == s.frames.Keys + {s.tagCount};
    var q := Parse(s, true, Some([b]), false);
    assert q.state.frames.Keys == s.frames.Keys + {s.tagCount};
  }

  /** prepare_frame_42 with the tag entering the table only once the host
      has taken the frame that names it: a failed save consumes the tag
      number but leaves no entry behind. */
  function PrepareCorrected(s: State, saveOk: bool): (r: Step<State, ExtensionFrame>)
    ensures r.status == Prepare(s, saveOk).status && r.out == Prepare(s, saveOk).out
    ensures r.state.tagCount == s.tagCount + 1
    ensures r.state.frames.Keys == s.frames.Keys + (if r.out.Some? then {s.tagCount} else {})
    ensures r.out.Some? ==> r.state == Prepare(s, saveOk).state
    ensures r.out.None? ==> r.state == Prepare(s, saveOk).state.(frames := s.frames)
  {
    var p := Prepare(s, saveOk);
    if p.out.Some? then p else Step(p.state.(frames := s.frames), p.status, p.out)
  }

  /** parse_frame_42 with the same correction: the read byte is stored
      only when the host has taken the parsed frame. */
  function ParseCorrected(s: State, buffer: bool, read: Option<seq<u8>>, saveOk: bool): (r: Step<State, ExtensionFrame>)
    ensures r.status == Parse(s, buffer, read, saveOk).status && r.out == Parse(s, buffer, read, saveOk).out
    ensures r.state.tagCount == Parse(s, buffer, read, saveOk).state.tagCount
    ensures r.state.frames.Keys == s.frames.Keys + (if r.out.Some? then {s.tagCount} else {})
    ensures r.out.Some? ==> r.state == Parse(s, buffer, read, saveOk).state
    ensures r.out.None? ==> r.state == Parse(s, buffer, read, saveOk).state.(frames := s.frames)
  {
    var p := Parse(s, buffer, read, saveOk);
    if p.out.Some? then p else Step(p.state.(frames := s.frames), p.status, p.out)
  }

  /** With the correction, every prepare releases its tag exactly once:
      either at once, because the save failed, or when the host notifies
      the frame it received. */
  lemma CorrectedPrepareReleasesOnce(s: State, saveOk: bool, isLost: bool)
    requires Valid(s)
    ensures var p := PrepareCorrected(s, saveOk);
      var after := if p.out.Some? then Notify(p.state, Some(p.out.value.tag), Some(isLost)).state else p.state;
      after.frames == s.frames
  {
    if saveOk {
      PrepareThenNotifyRestoresTable(s, isLost);
    }
  }

  /** With the correction, every received frame's tag is released exactly
      once: at once when the parsed frame could not be saved, or when the
      saved frame has been processed. */
  lemma CorrectedReceiveReleasesOnce(s: State, b: u8, saveOk: bool, callOk: bool)
    requires Valid(s)
    ensures var p := ParseCorrected(s, true, Some([b]), saveOk);
      var after := if p.out.Some? then ProcessReleasing(p.state, p.out.value.tag, callOk).state else p.state;
      after.frames == s.frames
  {
    var p := ParseCorrected(s, true, Some([b]), saveOk);
    if p.out.Some? {
      var after := ProcessReleasing(p.state, p.out.value.tag, callOk).state;
      assert after.frames.Keys == s.frames.Keys;
    }
  }
}

=== FILE: super_frame_trace.dfy ===
/** Sequences of super-frame callbacks. Only the callbacks that change the
    plugin state appear as events; the gate, wire_len, write and the
    transport-parameter writer leave it untouched. */
module SuperFrameTrace {
  import opened Host
  import opened SuperFrame

  datatype Event =
    | Prep(saveOk: bool)
    | Recv(buffer: bool, read: Option<seq<u8>>, saveOk: bool)
    | Proc(callOk: bool)
    | Reserve
    | Notified(frame: Option<nat>, isLost: Option<bool>)

  function Apply(s: State, e: Event): State {
    match e
    case Prep(ok) => Prepare(s, ok).state
    case Recv(b, rd, ok) => Parse(s, b, rd, ok).state
    case Proc(ok) => Process(s, ok).state
    case Reserve => OnFrameReserved(s)
    case Notified(f, l) => Notify(s, f, l).state
  }

  /** The tag an event takes from the counter, if any. */
  function Taken(s: State, e: Event): Option<nat> {
    match e
    case Prep(_) => Some(s.tagCount)
    case Recv(b, _, _) => if b then Some(s.tagCount) else None
    case _ => None
  }

  function Run(s: State, evs: seq<Event>): State
    decreases |evs|
  {
    if |evs| == 0 then s else Run(Apply(s, evs[0]), evs[1..])
  }

  /** The tags issued along a run, in order. */
  function Tags(s: State, evs: seq<Event>): seq<nat>
    decreases |evs|
  {
    if |evs| == 0 then []
    else
      var first := Taken(s, evs[0]);
      (if first.Some? then [first.value] else []) + Tags(Apply(s, evs[0]), evs[1..])
  }

  /** A notification the host delivered with both its inputs, which
      releases the tag and clears the in-flight flag. */
  predicate Releases(e: Event) {
    e.Notified? && e.frame.Some? && e.isLost.Some?
  }

  /** One event: the counter never goes down, the taken tag is the old
      counter and lies below the new one, and validity is kept. */
  lemma ApplyStep(s: State, e: Event)
    ensures Apply(s, e).tagCount >= s.tagCount
    ensures Taken(s, e).Some? ==> Taken(s, e).value == s.tagCount < Apply(s, e).tagCount
    ensures Valid(s) ==> Valid(Apply(s, e))
    ensures Valid(s) && Taken(s, e).Some? ==> Taken(s, e).value !in s.frames
  {
  }

  /** Tags are issued in strictly increasing order, all of them at or above
      the starting counter and below the final one; a run keeps validity, so
      no tag is issued while it is live. */
  lemma {:induction false} TagsIncrease(s: State, evs: seq<Event>)
    ensures forall i, j :: 0 <= i < j < |Tags(s, evs)| ==> Tags(s, evs)[i] < Tags(s, evs)[j]
    ensures forall i :: 0 <= i < |Tags(s, evs)| ==> s.tagCount <= Tags(s, evs)[i] < Run(s, evs).tagCount
    ensures s.tagCount <= Run(s, evs).tagCount
    ensures Valid(s) ==> Valid(Run(s, evs))
    decreases |evs|
  {
    if |evs| > 0 {
      var s1 := Apply(s, evs[0]);
      ApplyStep(s, evs[0]);
      TagsIncrease(s1, evs[1..]);
      var head: seq<nat> := if Taken(s, evs[0]).Some? then [Taken(s, evs[0]).value] else [];
      var tail := Tags(s1, evs[1..]);
      assert Tags(s, evs) == head + tail;
      forall i | 0 <= i < |tail|
        ensures s1.tagCount <= tail[i]
      {
      }
    }
  }

  /** Once a frame is reserved, the flag stays up until a notification
      clears it: throughout, the gate declines every packet. */
  lemma {:induction false} ReservedUntilNotified(s: State, evs: seq<Event>)
    requires forall i :: 0 <= i < |evs| ==> !Releases(evs[i])
    ensures Run(OnFrameReserved(s), evs).inFlight
    ensures forall pkt, closing ::
      ShouldSend(Run(OnFrameReserved(s), evs), Some(pkt), Some(closing), true).out == Some(false)
    decreases |evs|
  {
    if |evs| > 0 {
      var s1 := Apply(OnFrameReserved(s), evs[0]);
      assert s1.inFlight;
      assert s1 == OnFrameReserved(s1);
      ReservedUntilNotified(s1, evs[1..]);
    }
  }

  /** After a notification with both inputs, the gate again follows only
      the packet type and the closing flag. */
  lemma NotifiedReopensGate(s: State, tag: nat, isLost: bool, pkt: PacketType, closing: bool)
    ensures ShouldSend(Notify(s, Some(tag), Some(isLost)).state, Some(pkt), Some(closing), true).out
         == Some(pkt == Short && !closing)
  {
  }

  /** `n` complete send cycles: prepare, reserve, then the notification for
      the issued tag. */
  function SendCycles(s: State, n: nat, lost: bool): State
    decreases n
  {
    if n == 0 then s
    else
      var prepared := Prepare(s, true).state;
      var sent := Notify(OnFrameReserved(prepared), Some(s.tagCount), Some(lost)).state;
      SendCycles(sent, n - 1, lost)
  }

  /** After any number of complete send cycles the tag table is back to its
      starting contents, `n` tags have been used, and nothing is in flight. */
  lemma {:induction false} SendCyclesRestoreTable(s: State, n: nat, lost: bool)
    requires Valid(s)
    ensures SendCycles(s, n, lost).frames == s.frames
    ensures SendCycles(s, n, lost).tagCount == s.tagCount + n
    ensures n > 0 ==> !SendCycles(s, n, lost).inFlight
    decreases n
  {
    if n > 0 {
      var prepared := Prepare(s, true).state;
      var sent := Notify(OnFrameReserved(prepared), Some(s.tagCount), Some(lost)).state;
      assert sent.frames.Keys == s.frames.Keys;
      assert sent.frames == s.frames;
      SendCyclesRestoreTable(sent, n - 1, lost);
    }
  }

  /** A received frame as the code handles it: parsed (one byte) and then
      processed. */
  function Receive(s: State, b: u8, callOk: bool): State {
    Process(Parse(s, true, Some([b]), true).state, callOk).state
  }

  /** A received frame with its tag released after processing. */
  function ReceiveReleasing(s: State, b: u8, callOk: bool): State {
    ProcessReleasing(Parse(s, true, Some([b]), true).state, s.tagCount, callOk).state
  }

  /** Frames received one after another, with the capability call
      succeeding or not as `callOk` says. */
  function ReceiveAll(s: State, bs: seq<u8>, callOk: bool): State
    decreases |bs|
  {
    if |bs| == 0 then s else ReceiveAll(Receive(s, bs[0], callOk), bs[1..], callOk)
  }

  function ReceiveAllReleasing(s: State, bs: seq<u8>, callOk: bool): State
    decreases |bs|
  {
    if |bs| == 0 then s else ReceiveAllReleasing(ReceiveReleasing(s, bs[0], callOk), bs[1..], callOk)
  }

  /** As written, nothing releases a received frame's tag: every received
      frame leaves one more entry in the table. */
  lemma {:induction false} ReceivedTagsAccumulate(s: State, bs: seq<u8>, callOk: bool)
    requires Valid(s)
    ensures Valid(ReceiveAll(s, bs, callOk))
    ensures |ReceiveAll(s, bs, callOk).frames| == |s.frames| + |bs|
    decreases |bs|
  {
    if |bs| > 0 {
      var s1 := Receive(s, bs[0], callOk);
      assert s.tagCount !in s.frames;
      assert s1.frames.Keys == s.frames.Keys + {s.tagCount};
      assert |s1.frames.Keys| == |s.frames.Keys| + 1;
      ReceivedTagsAccumulate(s1, bs[1..], callOk);
    }
  }

  /** With the tag released after processing, any number of received
      frames leave the table as it was. */
  lemma {:induction false} ReleasedReceivesRestoreTable(s: State, bs: seq<u8>, callOk: bool)
    requires Valid(s)
    ensures ReceiveAllReleasing(s, bs, callOk).frames == s.frames
    ensures Valid(ReceiveAllReleasing(s, bs, callOk))
    decreases |bs|
  {
    if |bs| > 0 {
      var s1 := ReceiveReleasing(s, bs[0], callOk);
      assert s1.frames.Keys == s.frames.Keys;
      assert s1.frames == s.frames;
      ReleasedReceivesRestoreTable(s1, bs[1..], callOk);
    }
  }
}

=== FILE: varint.dfy ===
/** QUIC variable-length integers (section 16 of RFC 9000): the two most
    significant bits of the first byte give the encoding length (1, 2, 4 or
    8 bytes) and the remaining bits hold the value in network byte order. */
module Varint {
  import opened Host
  import opened BigEndian

  /** Lengths a varint can take, in bytes. */
  predicate ValidLength(n: nat) {
    n == 1 || n == 2 || n == 4 || n == 8
  }

  /** The two-bit length prefix of an `n`-byte encoding. */
  function Prefix(n: nat): (p: nat)
    requires ValidLength(n)
    ensures p < 4
  {
    if n == 1 then 0 else if n == 2 then 1 else if n == 4 then 2 else 3
  }

  /** The encoding length that a two-bit prefix announces. */
  function LengthOf(prefix: nat): (n: nat)
    requires prefix < 4
    ensures ValidLength(n) && Prefix(n) == prefix
  {
    if prefix == 0 then 1 else if prefix == 1 then 2 else if prefix == 2 then 4 else 8
  }

  /** Values an `n`-byte varint can hold are those below 2^(8n-2). */
  function Capacity(n: nat): nat
    requires n >= 1
  {
    64 * Pow256(n - 1)
  }

  /** The shortest encoding of `v` has `n` bytes. */
  predicate Shortest(v: nat, n: nat)
    requires ValidLength(n)
  {
    v < Capacity(n) && forall m: nat :: ValidLength(m) && m < n ==> Capacity(m) <= v
  }

  /** The `n`-byte encoding of `v`. */
  function Encode(v: nat, n: nat): (r: seq<u8>)
    requires ValidLength(n) && v < Capacity(n)
    ensures |r| == n
  {
    var b := ToBE(v, n);
    LeadingByteBelow64(v, n);
    [b[0] + 64 * Prefix(n)] + b[1..]
  }

  /** Reads one varint from the front of `s`: its value and the number of
      bytes it occupies, or None when `s` is too short. */
  function Decode(s: seq<u8>): (r: Option<(nat, nat)>)
    ensures r.Some? ==> ValidLength(r.value.1) && r.value.1 <= |s|
    ensures r.Some? ==> r.value.0 < Capacity(r.value.1)
    ensures r.None? <==> |s| == 0 || |s| < LengthOf(s[0] / 64)
  {
    if |s| == 0 then None
    else
      var n := LengthOf(s[0] / 64);
      if |s| < n then None
      else
        var t := [s[0] % 64] + s[1..n];
        FirstByteBound(t);
        Some((FromBE(t), n))
  }

  /** A big-endian string is worth less than (first byte + 1) * 256^(len-1). */
  lemma {:induction false} FirstByteBound(t: seq<u8>)
    requires |t| >= 1
    ensures FromBE(t) < (t[0] + 1) * Pow256(|t| - 1)
  {
    if |t| > 1 {
      var init := t[..|t| - 1];
      FirstByteBound(init);
      var a := (t[0] + 1) * Pow256(|t| - 2);
      assert (t[0] + 1) * Pow256(|t| - 1) == 256 * a;
    }
  }

  /** Decoding an encoding, whatever follows it, gives the value and length back. */
  lemma DecodeEncode(v: nat, n: nat, rest: seq<u8>)
    requires ValidLength(n) && v < Capacity(n)
    ensures Decode(Encode(v, n) + rest) == Some((v, n))
  {
    var b := ToBE(v, n);
    LeadingByteBelow64(v, n);
    var e := Encode(v, n) + rest;
    assert e[0] / 64 == Prefix(n) && e[0] % 64 == b[0];
    assert [e[0] % 64] + e[1..n] == b;
    FromToBE(v, n);
  }
}
